=== FILE: README.md ===
# Wiki link parsing — a Dafny model

This project models the `URL` extension of the Wikipedia iOS app that
rewrites, resolves and classifies wiki links
(`Wikipedia/Code/URL+LinkParsing.swift`). Every member of that extension is
a pure transformation of a URL, so the model is a set of pure functions over
an immutable URL record, with contracts and lemmas about them.

Layout, one module per concern:

- `options.dfy` — `Options.Option`, Swift's optional.
- `text.dfy` — `Text`: prefix test, `firstIndex(of:)`, `joined(separator:)`,
  splitting at a character, single-character replacement, with their round trips.
- `utf8.dfy` — `Utf8`: UTF-8 encoding and decoding of Unicode scalar values
  (section 3 of RFC 3629), with both round trips.
- `percent_encoding.dfy` — `PercentEncoding`: percent-encoding against an
  allow-list (sections 2.1 and 2.5 of RFC 3986) and its decoding; round trip,
  injectivity, and the output alphabet.
- `foundation.dfy` — `Foundation`: the URL record (`Url`, `QueryItem`) and
  the Foundation behaviour the code relies on but does not define, gathered
  in the `Platform` record of functions (`URLComponents(url:)`, `.url`,
  `URLComponents(string:)`, `url(relativeTo:)`, `path`, `pathComponents`,
  `pathExtension`, `lowercased()`, the two character sets).
- `resolution.dfy` — `Resolution`: reference resolution as section 5.2 of
  RFC 3986 describes it (merge, dot-segment removal, target construction).
  It is the reference that Foundation's `url(relativeTo:)` is compared
  against; the link code itself only ever calls the opaque `Platform.resolve`.
- `link_parsing.dfy` — `LinkParsing`: the members of the extension. The
  app's own helpers that the file calls but does not define (`wmf_title`,
  `wmf_language`, `wmf_URL(withTitle:)`, the namespace helpers, the
  `Configuration` constants, the title encoder's allow-list) are the `Wiki`
  record of functions and constants.
- `link_parsing_properties.dfy` — `LinkParsingProperties`: lemmas that
  relate the members to each other and to the reference definitions.

Where the behaviour depends on code that is not part of this model, the
contracts are stated in terms of the opaque function standing for it, so
they say how this file combines those functions, whatever they do.

## Model

| member | source | states |
|---|---|---|
| `LinkParsing.ReplacingSchemeWithWikipediaScheme` | Wikipedia/Code/URL+LinkParsing.swift:5-9 | `nil` exactly when the components cannot be taken apart or reassembled under the new scheme; otherwise the scheme is `wikipedia` and host, path, query and fragment are the input's |
| `LinkParsingProperties.ReplacingSchemeIdempotent` | Wikipedia/Code/URL+LinkParsing.swift:5-9 | replacing the scheme of an already replaced URL gives the same URL back |
| `LinkParsing.PercentEncodedPageTitleForPathComponents` | Wikipedia/Code/URL+LinkParsing.swift:11-18 | `nil` exactly when the URL has no title; otherwise every character is admitted by the title allow-list or is one of the escape characters `%`, `0-9`, `A-F`, and when the allow-list does not admit `%` it decodes to the path form of the title (spaces as `_`, as in the `G/O_Media` example) |
| `LinkParsingProperties.EncodedTitleRoundTrip` | Wikipedia/Code/URL+LinkParsing.swift:11-18 | when the allow-list escapes `/` and `%`, the encoded title holds no `/` and decodes back to the path form of the title |
| `LinkParsing.EncodedWikiURL` | Wikipedia/Code/URL+LinkParsing.swift:16-28 | a result exists exactly when there is a title, the URL decomposes into components, and those components with the path `/wiki/<encoded title>` assemble; then scheme, host, query and fragment are the callee's and the path is `/wiki/` followed by the encoded title |
| `LinkParsingProperties.EncodedWikiURLSegments` | Wikipedia/Code/URL+LinkParsing.swift:16-28 | when the title allow-list escapes `/` and `%`, the path of `encodedWikiURL` splits into exactly the two segments `wiki` and the encoded title, which decodes to the path form of the page title, so a title with slashes stays one segment |
| `LinkParsing.AddingPercentEncoding` | Wikipedia/Code/URL+LinkParsing.swift:35 | encoding never fails on a string of Unicode scalars, and every output character is allowed or one of the escape characters `%`, `0-9`, `A-F` |
| `LinkParsing.HrefComponentsString` | Wikipedia/Code/URL+LinkParsing.swift:33-38 | an href starting with `.` or `/` is escaped against the relative-path-and-fragment set; any other href is passed on verbatim |
| `LinkParsingProperties.PathHrefRoundTrip` | Wikipedia/Code/URL+LinkParsing.swift:34-35 | the escaping applied to a path href decodes back to the href, when the character set escapes `%` |
| `LinkParsingProperties.AllowedHrefVerbatim` | Wikipedia/Code/URL+LinkParsing.swift:34-35 | an href made only of allowed characters reaches the parser unchanged |
| `LinkParsing.ResolvingRelativeWikiHref` | Wikipedia/Code/URL+LinkParsing.swift:32-43 | a result exists exactly when the href string parses into components that assemble; when `encodedWikiURL` exists the result is the reference resolved against it, never against the raw callee; when it does not, the result is the parsed reference itself |
| `LinkParsingProperties.ResolvingSiblingHref` | Wikipedia/Code/URL+LinkParsing.swift:40-42 | when `url(relativeTo:)` resolves as RFC 3986 describes it, the title allow-list escapes `/` and `%`, and `./name` (a plain segment name) is made of allowed characters and parses as a scheme-less, host-less reference with exactly that path, then `./name` from any wiki page with an encoded URL, whatever slashes its title holds, resolves to `/wiki/name` on the page's scheme and host |
| `LinkParsingProperties.RawBaseSplitsTitle` | Wikipedia/Code/URL+LinkParsing.swift:40-42 | against the raw path `/wiki/a/b` of a title `a/b`, the same href would land on `/wiki/a/name`, which is why the base is encoded |
| `LinkParsingProperties.ResolvingAbsoluteHref` | Wikipedia/Code/URL+LinkParsing.swift:36-42 | when `url(relativeTo:)` resolves as RFC 3986 describes it, an href that does not start with `.` or `/` and parses with its own scheme resolves to the same URL from every wiki page with an encoded URL: the parsed href with dot segments removed |
| `LinkParsing.WmfWiki` | Wikipedia/Code/URL+LinkParsing.swift:81-83 | `nil` exactly when there is no language; otherwise the language with each `-` turned into `_`, then `wiki`: four characters longer, ending in `wiki`, free of `-` |
| `LinkParsingProperties.WmfWikiRecoversLanguage` | Wikipedia/Code/URL+LinkParsing.swift:81-83 | for a language without `_`, turning `_` back into `-` in all but the `wiki` suffix gives the language back |
| `LinkParsingProperties.WmfWikiInjective` | Wikipedia/Code/URL+LinkParsing.swift:81-83 | distinct such languages give distinct database names |
| `LinkParsing.URLForSharing` | Wikipedia/Code/URL+LinkParsing.swift:85-90 | when the components can be rebuilt the whole query is the one item `wprov=<tag>`, earlier items discarded; otherwise the input comes back; scheme, host, path and fragment never change |
| `LinkParsing.URLForTextSharing` | Wikipedia/Code/URL+LinkParsing.swift:92-95 | the same with the tag `sfti1` |
| `LinkParsing.URLForImageSharing` | Wikipedia/Code/URL+LinkParsing.swift:97-100 | the same with the tag `sfii1` |
| `LinkParsingProperties.SharingIdempotent` | Wikipedia/Code/URL+LinkParsing.swift:85-90 | tagging twice with the same tag is tagging once |
| `LinkParsingProperties.RetaggingReplacesTag` | Wikipedia/Code/URL+LinkParsing.swift:85-100 | tagging a tagged URL with another tag gives what tagging the original with that tag gives |
| `LinkParsing.Namespace` | Wikipedia/Code/URL+LinkParsing.swift:106-119 | `nil` without a language or a wiki resource path; with both, exactly the namespace the helper assigns to the wiki resource path of `path` (lines 106-108) in that language (`nil` included) |
| `LinkParsing.NamespaceAndTitle` | Wikipedia/Code/URL+LinkParsing.swift:121-126 | `nil` without a language or a wiki resource path; with both, exactly the pair the helper assigns (`nil` included) |
| `LinkParsingProperties.NamespaceMatchesPair` | Wikipedia/Code/URL+LinkParsing.swift:114-126 | when the two app helpers agree with each other, `namespace` is the namespace part of `namespaceAndTitle`, `nil` when that is `nil` |
| `LinkParsing.ArticleTalkPage` | Wikipedia/Code/URL+LinkParsing.swift:128-136 | `nil` without a language, and unless the page is in the main namespace; for a main-namespace title `t` it is the same wiki's URL for `Talk:t` |
| `LinkParsingProperties.TalkPageOnlyInMain` | Wikipedia/Code/URL+LinkParsing.swift:114-136 | when the app helpers agree, a page that has an article talk page has `namespace` equal to `.main` |
| `LinkParsing.IsHostedFileLink` | Wikipedia/Code/URL+LinkParsing.swift:142-144 | true exactly when the URL has a host whose lower-cased form is the uploads domain; a URL without a host is never a hosted file link |
| `LinkParsingProperties.HostedFileLinkIgnoresCase` | Wikipedia/Code/URL+LinkParsing.swift:142-144 | the uploads-domain test gives the same answer for a host and for its lower-cased form (when lower-casing is stable on it): the test ignores case |
| `LinkParsingProperties.HostedFileLinkSameLowered` | Wikipedia/Code/URL+LinkParsing.swift:142-144 | two hosts that lower-case to the same string are both upload hosts or neither |
| `LinkParsing.TranscodedPathComponents` | Wikipedia/Code/URL+LinkParsing.swift:158-171 | no rewrite without a last component, without `commons`, or when the first `commons` is last; otherwise two components longer, `transcoded` right after the first `commons`, the rest shifted, and the last component plus `.mp3` at the end |
| `LinkParsingProperties.TranscodedRemovesToOriginal` | Wikipedia/Code/URL+LinkParsing.swift:168-171 | removing the two inserted components gives the original list |
| `LinkParsingProperties.TranscodedTotalLength` | Wikipedia/Code/URL+LinkParsing.swift:168-171 | the rewritten list holds the characters of the original plus the ten of `transcoded` and the file name with `.mp3` |
| `LinkParsingProperties.TranscodedKeepsAbsolute` | Wikipedia/Code/URL+LinkParsing.swift:158-171 | the rewrite of an absolute component list (root `/`, then non-empty segments without `/`) is again one |
| `LinkParsingProperties.TranscodedExample` | Wikipedia/Code/URL+LinkParsing.swift:158-171 | the components of `/wikipedia/commons/a/ab/Sound.ogg` become those of `/wikipedia/commons/transcoded/a/ab/Sound.ogg/Sound.ogg.mp3` |
| `LinkParsing.ByMakingiOSCompatibilityAdjustments` | Wikipedia/Code/URL+LinkParsing.swift:147-176 | the input comes back unchanged when the host is not the uploads domain, the extension is not ogg audio, the components cannot be rewritten, or the URL cannot be rebuilt; otherwise it is the URL with its path set to the ORIGINAL components joined by `/`; only the path ever changes |
| `LinkParsingProperties.AsWrittenKeepsOriginalComponents` | Wikipedia/Code/URL+LinkParsing.swift:173-175 | when the path character set escapes `%`, the guards pass and the URL can be rebuilt, the path decodes to the original components joined by `/`, which for an absolute path begins with `//` |
| `LinkParsing.ByMakingiOSCompatibilityAdjustmentsIntended` | Wikipedia/Code/URL+LinkParsing.swift:146-171 | the same guards; when they pass and the URL can be rebuilt, the path is set to the rewritten components under one leading slash, otherwise the input comes back |
| `LinkParsingProperties.IntendedWritesTranscodedComponents` | Wikipedia/Code/URL+LinkParsing.swift:146-171 | when the path character set escapes `%`, the components are those of an absolute path (root `/`, then non-empty segments without `/`), the guards pass and the URL can be rebuilt, the path decodes to the rewritten components under exactly one leading slash, and its segments are the rewritten components after the root |
| `LinkParsingProperties.RewriteNeverReachesResult` | Wikipedia/Code/URL+LinkParsing.swift:146-175 | when the path character set escapes `%`, the guards pass and both paths can be assembled, the code as written returns a different URL from the corrected rewrite |
| `LinkParsingProperties.ComponentsPathSegments` | Wikipedia/Code/URL+LinkParsing.swift:168-174 | an absolute component list put back as a path under one slash has exactly the components after the root as its segments |
| `LinkParsingProperties.JoinDoublesRoot` | Wikipedia/Code/URL+LinkParsing.swift:174 | joining a component list that starts with the root `/` by `/` gives a path that starts with `//` |
| `LinkParsingProperties.AsWrittenExamplePath` | Wikipedia/Code/URL+LinkParsing.swift:158-175 | the components of the example upload path `/wikipedia/commons/a/ab/Sound.ogg` joined as line 174 joins them give `//wikipedia/commons/a/ab/Sound.ogg` |
| `LinkParsingProperties.IntendedExamplePath` | Wikipedia/Code/URL+LinkParsing.swift:168-171 | the example upload path's rewritten components, under one leading slash, give `/wikipedia/commons/transcoded/a/ab/Sound.ogg/Sound.ogg.mp3` |
| `Foundation.SettingPathDecodes` | Wikipedia/Code/URL+LinkParsing.swift:174 | assigning `path` stores an encoding that decodes to the assigned path and changes no other component, when the path character set escapes `%` |
| `PercentEncoding.Encode` | Wikipedia/Code/URL+LinkParsing.swift:35 | every output character is allowed or one of the escape characters `%`, `0-9`, `A-F`, and every allowed character that is not an escape character appears in the output |
| `PercentEncoding.DecodeEncode` | Wikipedia/Code/URL+LinkParsing.swift:35 | decoding undoes encoding for every string, when `%` is not allowed |
| `PercentEncoding.EncodeInjective` | Wikipedia/Code/URL+LinkParsing.swift:35 | distinct strings have distinct encodings, when the character set escapes `%` |
| `PercentEncoding.EncodeAllowed` | Wikipedia/Code/URL+LinkParsing.swift:35 | a string of allowed characters is its own encoding |
| `Utf8.DecodeEncode` | Wikipedia/Code/URL+LinkParsing.swift:35 | UTF-8 decoding undoes UTF-8 encoding |
| `Utf8.EncodeDecode` | Wikipedia/Code/URL+LinkParsing.swift:35 | every well-formed UTF-8 sequence is the encoding of what it decodes to |
| `Resolution.Resolve` | Wikipedia/Code/URL+LinkParsing.swift:42 | the fragment is the reference's; a reference with a scheme keeps its scheme, host and query; otherwise scheme (and, without a host, host) come from the base |
| `Resolution.ResolveSibling` | Wikipedia/Code/URL+LinkParsing.swift:42 | `./name` against a base path `<dirs>/<last>` lands on `<dirs>/name` |
| `Text.FirstIndexOf` | Wikipedia/Code/URL+LinkParsing.swift:162 | `nil` exactly when the element is absent; otherwise a position holding it with no earlier occurrence |
| `Text.ReplaceAll` | Wikipedia/Code/URL+LinkParsing.swift:82 | same length, each `from` replaced by `to`, every other character kept |
| `Text.SplitJoin` | Wikipedia/Code/URL+LinkParsing.swift:24-26 | splitting components joined by a separator they do not contain gives the components back |
| `Text.JoinSplit` | Wikipedia/Code/URL+LinkParsing.swift:174 | joining the pieces of a split restores the string |
| `Text.JoinLength` | Wikipedia/Code/URL+LinkParsing.swift:174 | a joined string is the parts' total length plus one separator per neighbouring pair |

## Left out

- The `NSURL`-bridged accessors (`wmf_language`, `wmf_title`,
  `wmf_titleWithUnderscores`, `wmf_databaseKey`, `wmf_site`, the three
  `wmf_URL(with…)`, `wmf_isNonStandardURL`), `canonical` and
  `isPreviewable`: their code is not part of this model. The three the
  modelled members call are opaque fields of `LinkParsing.Wiki`; the rest are
  not modelled.
- `wmf_isWikiResource` on `NSURL`: only a `nil` test on the unseen
  `wikiResourcePath` helper.
- `Configuration.Domain.uploads`, `Configuration.File.Extensions.oggAudio`,
  `String.wikiResourcePath` and the namespace helpers: parameters (fields of
  `LinkParsing.Wiki`); their code is not part of this model.
- `wResourcePath` reads the `String` helper `path.wResourcePath`, whose code
  is not part of this model, and nothing in the file uses it; not modelled.
- `String.percentEncodedPageTitleForPathComponents`: its code is not part of
  this model; it is read as percent-encoding the path form of the title
  (`Wiki.denormalize`) against an allow-list that is a parameter. The
  properties that need `/` and `%` escaped require it
  (`EscapesSlashAndPercent`).
- `LinkParsing.Wiki.denormalize`, the title's path form with spaces as
  underscores, is opaque: the title encoder's own code is not part of this
  model, so the round trips decode to `denormalize(title)` whatever that is.
- `URLComponents.replacePercentEncodedPathWithPathComponents`: its code is
  not part of this model; it is read as setting the percent-encoded path to
  the components joined by `/` under a leading `/`.
- Foundation's URL parsing, `URLComponents(url:)`, `.url`, `url(relativeTo:)`,
  `path`, `pathComponents`, `pathExtension` and `lowercased()` are opaque
  fields of `Foundation.Platform`. Taking apart and putting back together is
  exact when it succeeds, for the URLs the record represents (next line). Properties of resolution hold under the stated
  assumption that `url(relativeTo:)` behaves as `Resolution.Resolve`.
- A URL carrying a `baseURL` is not represented: the `Url` record is the
  absolute URL. Foundation's `host`, `path` and `pathComponents` read the
  resolved URL, while `URLComponents(url:resolvingAgainstBaseURL: false)`
  keeps only the relative part, so for such a URL the rebuilt result (for
  instance at line 175) can lose its host. That `resolvingAgainstBaseURL:
  false` distinction is not modelled.
- `Foundation.Components` and `Foundation.Assemble` only name the two
  opaque Foundation steps `URLComponents(url:)` and `.url`; their contracts
  restate that abstraction and promise nothing about Foundation itself.
- `Resolution.Resolve` performs the dot-segment removal of section 5.2.4 of
  RFC 3986 segment by segment rather than on the character string.
- `Resolution.RemoveDotSegments` never removes the first segment of a path:
  on the rooted paths a wiki base gives this is the root, but for a relative
  path it differs from section 5.2.4 of RFC 3986 (`a/..` gives `a/`, where
  the RFC gives `/`). This reaches `ResolvingAbsoluteHref` only for an href
  with a scheme and a relative path, such as `urn:a/..`.
- The URL record has no user information, port or query string spelling: the
  host stands for the whole authority and the query is the list of items.
- `resolvingRelativeWikiHref`: `url(relativeTo:)` returning `nil` is modelled
  as the components not assembling; with no encoded base the parsed reference
  stands on its own.
- The `?? href` fallback of line 35 is unreachable in the model:
  `addingPercentEncoding` only fails on text that is not valid Unicode, and a
  Dafny string is always a sequence of Unicode scalar values.
- `hasPrefix` in Swift compares grapheme clusters, so an href whose first
  `.` carries a combining mark is not prefixed by `.`; the model compares
  Unicode scalars.
- The `assert(false)` in `encodedWikiURL` is a debug-build trap; the model
  follows a release build and returns `nil`.
- `LinkParsing.PageNamespace` keeps only the distinction the file uses:
  `.main` or another namespace, identified by a number.
- `LinkParsing.ByMakingiOSCompatibilityAdjustments`: `pathComponents` and
  the percent-encoded path are independent opaque values, so the contracts do
  not relate the components to the path the URL already had. The properties
  about the doubled and single leading slash assume Foundation's listing of
  an absolute path (`AbsoluteComponents`: the root `/` first, then non-empty
  segments without `/`).

## Findings

| source | as written | input that shows it | evidently intended | confidence | as-written member | corrected member |
|---|---|---|---|---|---|---|
| Wikipedia/Code/URL+LinkParsing.swift:174 | after building the rewritten list `mutableComponents` (lines 168-171), the path is set from the original `pathComponents` joined by `/`; the rewrite never reaches the result, and because `pathComponents` starts with the root component `/`, the joined path starts with a doubled slash | an example upload URL with path `/wikipedia/commons/a/ab/Sound.ogg`: the guards pass and the returned path is `//wikipedia/commons/a/ab/Sound.ogg` | the path is the list built at lines 168-171, which line 146 says should turn ogg links into mp3 links: `/wikipedia/commons/transcoded/a/ab/Sound.ogg/Sound.ogg.mp3` for the example. The single leading slash is a second correction: joining `mutableComponents` the way line 174 joins `pathComponents` would also give `//…` | high; not executed | `LinkParsing.ByMakingiOSCompatibilityAdjustments` (discrepancy: `LinkParsingProperties.RewriteNeverReachesResult`, `LinkParsingProperties.AsWrittenExamplePath`) | `LinkParsing.ByMakingiOSCompatibilityAdjustmentsIntended` (property: `LinkParsingProperties.IntendedWritesTranscodedComponents`, `LinkParsingProperties.IntendedExamplePath`) |

=== FILE: foundation.dfy ===
/** The parts of Apple's Foundation that the link-parsing code leans on,
    reduced to what it observes: a URL as the record of its components,
    and the library behaviour it does not define itself as parameters. */
module Foundation {
  import opened Options
  import PercentEncoding

  /** One `name=value` pair of a query; `value` is `nil` for a bare name. */
  datatype QueryItem = QueryItem(name: string, value: Option<string>)

  /** A URL, or the `URLComponents` taken from one. `host` stands for the
      whole authority (user information and port are not modelled), the
      path is kept percent-encoded, and `queryItems` is `nil` when there is
      no query at all. A relative reference is a `Url` without a scheme.
      There is no `baseURL`: a URL made relative to a base is represented
      only by its absolute form. */
  datatype Url = Url(
    scheme: Option<string>,
    host: Option<string>,
    percentEncodedPath: string,
    queryItems: Option<seq<QueryItem>>,
    fragment: Option<string>)

  /** The library behaviour the model does not define. Each field stands
      for one Foundation entry point:
      - `decomposes(u)`: `URLComponents(url: u, resolvingAgainstBaseURL: false)` is not `nil`;
        when it is not, the components are exactly `u`'s;
      - `assembles(c)`: `c.url` is not `nil`; when it is not, the URL has exactly `c`'s components;
      - `parse(s)`: `URLComponents(string: s)`;
      - `resolve(base, r)`: `r.url(relativeTo: base)?.absoluteURL` when that is not `nil`;
      - `path`, `pathComponents`, `pathExtension`: the `URL` accessors of the same names;
      - `lowercased`: `String.lowercased()`;
      - `urlPathAllowed`: the characters the `URLComponents.path` setter leaves unescaped;
      - `relativePathAndFragmentAllowed`: the character set of that name. */
  datatype Platform = Platform(
    decomposes: Url -> bool,
    assembles: Url -> bool,
    parse: string -> Option<Url>,
    resolve: (Url, Url) -> Url,
    path: Url -> string,
    pathComponents: Url -> seq<string>,
    pathExtension: Url -> string,
    lowercased: string -> string,
    urlPathAllowed: char -> bool,
    relativePathAndFragmentAllowed: char -> bool)

  /** `URLComponents(url:resolvingAgainstBaseURL: false)`. */
  function Components(p: Platform, u: Url): (c: Option<Url>)
    ensures c.Some? <==> p.decomposes(u)
    ensures c.Some? ==> c.value == u
  {
    if p.decomposes(u) then Some(u) else None
  }

  /** `URLComponents.url`. */
  function Assemble(p: Platform, c: Url): (u: Option<Url>)
    ensures u.Some? <==> p.assembles(c)
    ensures u.Some? ==> u.value == c
  {
    if p.assembles(c) then Some(c) else None
  }

  /** Assigning the (unescaped) `URLComponents.path`: the setter
      percent-encodes what it is given and touches no other component. */
  function SettingPath(p: Platform, c: Url, path: string): Url {
    c.(percentEncodedPath := PercentEncoding.Encode(path, p.urlPathAllowed))
  }

  /** The path set is the path read back: decoding the stored path gives
      the assigned one, and nothing but the path changes. */
  lemma SettingPathDecodes(p: Platform, c: Url, path: string)
    requires !p.urlPathAllowed('%')
    ensures PercentEncoding.Decode(SettingPath(p, c, path).percentEncodedPath) == Some(path)
    ensures SettingPath(p, c, path).(percentEncodedPath := c.percentEncodedPath) == c
  {
    PercentEncoding.DecodeEncode(path, p.urlPathAllowed);
  }
}

=== FILE: link_parsing.dfy ===
/** The link-rewriting extension on `URL` in the Wikipedia iOS app
    (Wikipedia/Code/URL+LinkParsing.swift): every member is a pure
    transformation of a URL record. Foundation's behaviour arrives through
    a `Platform`, the app helpers this file calls but does not define
    through a `Wiki`. */
module LinkParsing {
  import opened Options
  import opened Text
  import opened Foundation
  import PercentEncoding

  /** A wiki namespace. The file only ever asks whether a namespace is the
      main (article) one, so every other namespace is kept by its number. */
  datatype PageNamespace = Main | Other(id: int)

  /** The pair `(namespace, title)` that `namespaceAndTitle` yields. */
  datatype NamespacedTitle = NamespacedTitle(namespace: PageNamespace, title: string)

  /** The app's helpers whose code is not part of this model:
      - `language`, `title`: `wmf_language`, `wmf_title` (bridged from `NSURL`);
      - `denormalize`: the path form of a title, with spaces as underscores
        (the title `G/O Media` is the path segment `G/O_Media`);
      - `urlWithTitle`: `wmf_URL(withTitle:)`;
      - `wikiResourcePath`: `String.wikiResourcePath`;
      - `namespaceOf`, `namespaceAndTitleOf`: `namespaceOfWikiResourcePath(with:)` and
        `namespaceAndTitleOfWikiResourcePath(with:)`, given the resource path and the language;
      - `titleAllowed`: the characters `String.percentEncodedPageTitleForPathComponents`
        leaves unescaped (it percent-encodes the path form of the title
        against that allow-list);
      - `uploadsDomain`: `Configuration.Domain.uploads`;
      - `oggAudio`: `Configuration.File.Extensions.oggAudio`. */
  datatype Wiki = Wiki(
    language: Url -> Option<string>,
    title: Url -> Option<string>,
    denormalize: string -> string,
    urlWithTitle: (Url, string) -> Option<Url>,
    wikiResourcePath: string -> Option<string>,
    namespaceOf: (string, string) -> Option<PageNamespace>,
    namespaceAndTitleOf: (string, string) -> Option<NamespacedTitle>,
    titleAllowed: char -> bool,
    uploadsDomain: string,
    oggAudio: set<string>)

  /** What the title encoding must escape for titles to survive being put
      in a path: the slash (so a title stays one segment) and the percent
      sign (so the escapes can be read back). */
  predicate EscapesSlashAndPercent(w: Wiki) {
    !w.titleAllowed('/') && !w.titleAllowed('%')
  }

  /** The segments of a percent-encoded path, the leading slash of an
      absolute path not counting as a separator. */
  function PathSegments(path: string): seq<string> {
    if |path| > 0 && path[0] == '/' then Split(path[1..], '/') else Split(path, '/')
  }

  /** The path `/wiki/<title>` is the two segments `wiki` and the title
      joined under a leading slash. */
  lemma WikiTitlePath(title: string)
    ensures "/" + Join(["wiki", title], "/") == "/wiki/" + title
  {
    assert ["wiki", title][1..] == [title];
  }

  // ---------------------------------------------------------------------
  // Scheme replacement

  /** `replacingSchemeWithWikipediaScheme`: the same URL under the
      `wikipedia` scheme, or `nil` when the components cannot be taken
      apart or put back together. */
  function ReplacingSchemeWithWikipediaScheme(p: Platform, u: Url): (r: Option<Url>)
    ensures r.Some? <==> p.decomposes(u) && p.assembles(u.(scheme := Some("wikipedia")))
    ensures r.Some? ==> r.value.scheme == Some("wikipedia")
    ensures r.Some? ==> r.value.host == u.host && r.value.percentEncodedPath == u.percentEncodedPath
    ensures r.Some? ==> r.value.queryItems == u.queryItems && r.value.fragment == u.fragment
  {
    match Components(p, u)
    case None => None
    case Some(c) => Assemble(p, c.(scheme := Some("wikipedia")))
  }

  // ---------------------------------------------------------------------
  // Title-safe path rebuilding

  /** `percentEncodedPageTitleForPathComponents`: the path form of the page
      title, escaped against the title allow-list; `nil` exactly when there
      is no title. */
  function PercentEncodedPageTitleForPathComponents(w: Wiki, u: Url): (r: Option<string>)
    ensures r.Some? <==> w.title(u).Some?
    ensures r.Some? ==> forall i :: 0 <= i < |r.value| ==>
      w.titleAllowed(r.value[i]) || PercentEncoding.IsEscapeChar(r.value[i])
    ensures r.Some? && !w.titleAllowed('%') ==>
      PercentEncoding.Decode(r.value) == Some(w.denormalize(w.title(u).value))
  {
    match w.title(u)
    case None => None
    case Some(t) =>
      PercentEncoding.DecodeEncodeWhenEscaped(w.denormalize(t), w.titleAllowed);
      Some(PercentEncoding.Encode(w.denormalize(t), w.titleAllowed))
  }

  /** `URLComponents.replacePercentEncodedPathWithPathComponents`, read as
      setting the percent-encoded path to the segments joined under a
      leading slash. */
  function ReplacingPercentEncodedPath(c: Url, segments: seq<string>): Url {
    c.(percentEncodedPath := "/" + Join(segments, "/"))
  }

  /** `encodedWikiURL`: the callee with its path replaced by `wiki` and the
      encoded title. A callee without a title (the source's debug trap)
      gives `nil`, as in a release build. */
  function EncodedWikiURL(p: Platform, w: Wiki, u: Url): (r: Option<Url>)
    ensures r.Some? <==>
      && w.title(u).Some? && p.decomposes(u)
      && p.assembles(u.(percentEncodedPath := "/wiki/" + PercentEncodedPageTitleForPathComponents(w, u).value))
    ensures r.Some? ==> r.value.scheme == u.scheme && r.value.host == u.host
    ensures r.Some? ==> r.value.queryItems == u.queryItems && r.value.fragment == u.fragment
    ensures r.Some? ==>
      r.value.percentEncodedPath == "/wiki/" + PercentEncodedPageTitleForPathComponents(w, u).value
  {
    match PercentEncodedPageTitleForPathComponents(w, u)
    case None => None
    case Some(encodedTitle) =>
      match Components(p, u)
      case None => None
      case Some(c) =>
        WikiTitlePath(encodedTitle);
        Assemble(p, ReplacingPercentEncodedPath(c, ["wiki", encodedTitle]))
  }

  // ---------------------------------------------------------------------
  // Relative href resolution

  /** `addingPercentEncoding(withAllowedCharacters:)` as Swift types it:
      optional, `nil` only for text that is not valid Unicode, which a
      Dafny string never is. */
  function AddingPercentEncoding(s: string, allowed: char -> bool): (r: Option<string>)
    ensures r.Some?
    ensures forall i :: 0 <= i < |r.value| ==> allowed(r.value[i]) || PercentEncoding.IsEscapeChar(r.value[i])
  {
    Some(PercentEncoding.Encode(s, allowed))
  }

  /** Does the href start with `.` or `/` (a path relative to the page or
      to the host)? */
  predicate IsPathHref(href: string) {
    HasPrefix(href, ".") || HasPrefix(href, "/")
  }

  /** The string handed to `URLComponents(string:)`: path-like hrefs are
      escaped first, everything else is taken verbatim. */
  function HrefComponentsString(p: Platform, href: string): (s: string)
    ensures !IsPathHref(href) ==> s == href
    ensures IsPathHref(href) ==> forall i :: 0 <= i < |s| ==>
      p.relativePathAndFragmentAllowed(s[i]) || PercentEncoding.IsEscapeChar(s[i])
  {
    if IsPathHref(href) then
      AddingPercentEncoding(href, p.relativePathAndFragmentAllowed).GetOr(href)
    else
      href
  }

  /** `resolvingRelativeWikiHref(_:)`: the href resolved against the
      callee's title-safe form, `encodedWikiURL`; with no such form the
      reference stands on its own. */
  function ResolvingRelativeWikiHref(p: Platform, w: Wiki, u: Url, href: string): (r: Option<Url>)
    ensures r.Some? <==>
      p.parse(HrefComponentsString(p, href)).Some? && p.assembles(p.parse(HrefComponentsString(p, href)).value)
    ensures r.Some? && EncodedWikiURL(p, w, u).Some? ==>
      r.value == p.resolve(EncodedWikiURL(p, w, u).value, p.parse(HrefComponentsString(p, href)).value)
    ensures r.Some? && EncodedWikiURL(p, w, u).None? ==> r == p.parse(HrefComponentsString(p, href))
  {
    match p.parse(HrefComponentsString(p, href))
    case None => None
    case Some(c) =>
      if !p.assembles(c) then None
      else
        match EncodedWikiURL(p, w, u)
        case None => Some(c)
        case Some(base) => Some(p.resolve(base, c))
  }

  // ---------------------------------------------------------------------
  // Database name

  /** `wmf_wiki`: the language with every `-` turned into `_`, followed by
      `wiki`; `nil` exactly when there is no language. */
  function WmfWiki(w: Wiki, u: Url): (r: Option<string>)
    ensures r.None? <==> w.language(u).None?
    ensures r.Some? ==> |r.value| == |w.language(u).value| + 4
    ensures r.Some? ==> r.value[|w.language(u).value|..] == "wiki"
    ensures r.Some? ==> forall i :: 0 <= i < |w.language(u).value| ==>
      r.value[i] == (if w.language(u).value[i] == '-' then '_' else w.language(u).value[i])
    ensures r.Some? ==> '-' !in r.value
  {
    match w.language(u)
    case None => None
    case Some(language) =>
      var r := ReplaceAll(language, '-', '_') + "wiki";
      assert forall i :: 0 <= i < |r| ==> r[i] != '-';
      Some(r)
  }

  // ---------------------------------------------------------------------
  // Sharing provenance

  /** The query of a shared URL: the one item `wprov=<tag>`. */
  function ProvenanceQuery(wprov: string): seq<QueryItem> {
    [QueryItem("wprov", Some(wprov))]
  }

  /** Whether the components of `u` can be taken apart and put back
      together with the provenance query in place. */
  predicate CanTag(p: Platform, u: Url, wprov: string) {
    p.decomposes(u) && p.assembles(u.(queryItems := Some(ProvenanceQuery(wprov))))
  }

  /** `wmf_URLForSharing(with:)`: the URL whose whole query is the one
      provenance item, or the input itself when that URL cannot be built. */
  function URLForSharing(p: Platform, u: Url, wprov: string): (r: Url)
    ensures CanTag(p, u, wprov) ==> r.queryItems == Some([QueryItem("wprov", Some(wprov))])
    ensures r.scheme == u.scheme && r.host == u.host
    ensures r.percentEncodedPath == u.percentEncodedPath && r.fragment == u.fragment
    ensures !CanTag(p, u, wprov) ==> r == u
  {
    match Components(p, u)
    case None => u
    case Some(c) => Assemble(p, c.(queryItems := Some(ProvenanceQuery(wprov)))).GetOr(u)
  }

  /** `wmf_URLForTextSharing`: tagged `sfti1`. */
  function URLForTextSharing(p: Platform, u: Url): (r: Url)
    ensures CanTag(p, u, "sfti1") ==> r.queryItems == Some([QueryItem("wprov", Some("sfti1"))])
    ensures r.(queryItems := u.queryItems) == u
    ensures !CanTag(p, u, "sfti1") ==> r == u
  {
    URLForSharing(p, u, "sfti1")
  }

  /** `wmf_URLForImageSharing`: tagged `sfii1`. */
  function URLForImageSharing(p: Platform, u: Url): (r: Url)
    ensures CanTag(p, u, "sfii1") ==> r.queryItems == Some([QueryItem("wprov", Some("sfii1"))])
    ensures r.(queryItems := u.queryItems) == u
    ensures !CanTag(p, u, "sfii1") ==> r == u
  {
    URLForSharing(p, u, "sfii1")
  }

  // ---------------------------------------------------------------------
  // Namespaces and talk pages

  /** `wikiResourcePath`: the resource path of the decoded URL path. */
  function WikiResourcePath(p: Platform, w: Wiki, u: Url): Option<string> {
    w.wikiResourcePath(p.path(u))
  }

  /** `namespace`: `nil` without a language or a resource path. */
  function Namespace(p: Platform, w: Wiki, u: Url): (r: Option<PageNamespace>)
    ensures w.language(u).None? ==> r.None?
    ensures WikiResourcePath(p, w, u).None? ==> r.None?
    ensures w.language(u).Some? && WikiResourcePath(p, w, u).Some? ==>
      r == w.namespaceOf(WikiResourcePath(p, w, u).value, w.language(u).value)
  {
    match w.language(u)
    case None => None
    case Some(language) =>
      match WikiResourcePath(p, w, u)
      case None => None
      case Some(path) => w.namespaceOf(path, language)
  }

  /** `namespaceAndTitle`: `nil` without a language or a resource path. */
  function NamespaceAndTitle(p: Platform, w: Wiki, u: Url): (r: Option<NamespacedTitle>)
    ensures w.language(u).None? ==> r.None?
    ensures WikiResourcePath(p, w, u).None? ==> r.None?
    ensures w.language(u).Some? && WikiResourcePath(p, w, u).Some? ==>
      r == w.namespaceAndTitleOf(WikiResourcePath(p, w, u).value, w.language(u).value)
  {
    match w.language(u)
    case None => None
    case Some(language) =>
      match WikiResourcePath(p, w, u)
      case None => None
      case Some(path) => w.namespaceAndTitleOf(path, language)
  }

  /** `articleTalkPage`: the page titled `Talk:<title>` on the same wiki,
      for articles (main-namespace pages) only. */
  function ArticleTalkPage(p: Platform, w: Wiki, u: Url): (r: Option<Url>)
    ensures w.language(u).None? ==> r.None?
    ensures r.Some? ==> NamespaceAndTitle(p, w, u).Some? && NamespaceAndTitle(p, w, u).value.namespace == Main
    ensures forall t :: NamespaceAndTitle(p, w, u) == Some(NamespacedTitle(Main, t)) ==>
      r == w.urlWithTitle(u, "Talk:" + t)
  {
    match NamespaceAndTitle(p, w, u)
    case None => None
    case Some(nt) =>
      if nt.namespace != Main then None
      else w.urlWithTitle(u, "Talk:" + nt.title)
  }

  // ---------------------------------------------------------------------
  // Uploaded files

  /** `isHostedFileLink`: the host, lower-cased, is the uploads domain; a
      URL without a host never is one. */
  function IsHostedFileLink(p: Platform, w: Wiki, u: Url): (r: bool)
    ensures r ==> u.host.Some? && p.lowercased(u.host.value) == w.uploadsDomain
    ensures u.host.Some? && p.lowercased(u.host.value) == w.uploadsDomain ==> r
  {
    match u.host
    case None => false
    case Some(h) => p.lowercased(h) == w.uploadsDomain
  }

  /** The component list `byMakingiOSCompatibilityAdjustments` builds:
      `transcoded` inserted right after the first `commons`, and the last
      component with `.mp3` appended added at the end. `None` when there is
      no last component, no `commons`, or the first `commons` is last. */
  function TranscodedPathComponents(cs: seq<string>): (r: Option<seq<string>>)
    ensures r.None? <==> |cs| == 0 || "commons" !in cs || FirstIndexOf(cs, "commons").value == |cs| - 1
    ensures r.Some? ==> |r.value| == |cs| + 2
    ensures r.Some? ==>
      var i := FirstIndexOf(cs, "commons").value;
      && r.value[..i + 1] == cs[..i + 1]
      && r.value[i] == "commons" && "commons" !in r.value[..i]
      && r.value[i + 1] == "transcoded"
      && r.value[i + 2..|cs| + 1] == cs[i + 1..]
      && r.value[|cs| + 1] == cs[|cs| - 1] + ".mp3"
  {
    if |cs| == 0 then None
    else
      var filename := cs[|cs| - 1];
      match FirstIndexOf(cs, "commons")
      case None => None
      case Some(i) =>
        if i >= |cs| - 1 then None
        else Some(cs[..i + 1] + ["transcoded"] + cs[i + 1..] + [filename + ".mp3"])
  }

  /** The guards of `byMakingiOSCompatibilityAdjustments`: a hosted file
      whose lower-cased extension is an ogg-audio one and whose path
      components can be rewritten. */
  predicate IsTranscodable(p: Platform, w: Wiki, u: Url) {
    && IsHostedFileLink(p, w, u)
    && p.lowercased(p.pathExtension(u)) in w.oggAudio
    && TranscodedPathComponents(p.pathComponents(u)).Some?
  }

  /** The path whose `pathComponents` are `cs`: Foundation lists the root
      of an absolute path as the component `/`, which stands for the
      leading slash rather than a segment to be joined. */
  function ComponentsPath(cs: seq<string>): string {
    if |cs| > 0 && cs[0] == "/" then "/" + Join(cs[1..], "/") else Join(cs, "/")
  }

  /** `byMakingiOSCompatibilityAdjustments` as written: after the guards
      pass it assigns the ORIGINAL components, joined by `/`, as the path;
      the rewritten list is computed and dropped. */
  function ByMakingiOSCompatibilityAdjustments(p: Platform, w: Wiki, u: Url): (r: Url)
    ensures !IsHostedFileLink(p, w, u) ==> r == u
    ensures p.lowercased(p.pathExtension(u)) !in w.oggAudio ==> r == u
    ensures TranscodedPathComponents(p.pathComponents(u)).None? ==> r == u
    ensures IsTranscodable(p, w, u) && p.decomposes(u) && p.assembles(SettingPath(p, u, Join(p.pathComponents(u), "/"))) ==>
      r == SettingPath(p, u, Join(p.pathComponents(u), "/"))
    ensures !p.decomposes(u) || !p.assembles(SettingPath(p, u, Join(p.pathComponents(u), "/"))) ==> r == u
    ensures r.(percentEncodedPath := u.percentEncodedPath) == u
  {
    if !IsTranscodable(p, w, u) then u
    else
      match Components(p, u)
      case None => u
      case Some(c) => Assemble(p, SettingPath(p, c, Join(p.pathComponents(u), "/"))).GetOr(u)
  }

  /** The path the rewrite aims at: the component list built at the start
      of the rewrite, under a single leading slash. */
  function TranscodedPath(p: Platform, u: Url): string
    requires TranscodedPathComponents(p.pathComponents(u)).Some?
  {
    ComponentsPath(TranscodedPathComponents(p.pathComponents(u)).value)
  }

  /** `byMakingiOSCompatibilityAdjustments` corrected twice: the rewritten
      component list it builds (rather than the original one) becomes the
      path, and the root component gives one leading slash (joining the
      list by `/`, as the code does, would give two). */
  function ByMakingiOSCompatibilityAdjustmentsIntended(p: Platform, w: Wiki, u: Url): (r: Url)
    ensures !IsHostedFileLink(p, w, u) ==> r == u
    ensures p.lowercased(p.pathExtension(u)) !in w.oggAudio ==> r == u
    ensures TranscodedPathComponents(p.pathComponents(u)).None? ==> r == u
    ensures IsTranscodable(p, w, u) && p.decomposes(u) && p.assembles(SettingPath(p, u, TranscodedPath(p, u))) ==>
      r == SettingPath(p, u, TranscodedPath(p, u))
    ensures IsTranscodable(p, w, u) && (!p.decomposes(u) || !p.assembles(SettingPath(p, u, TranscodedPath(p, u)))) ==>
      r == u
    ensures r.(percentEncodedPath := u.percentEncodedPath) == u
  {
    if !IsTranscodable(p, w, u) then u
    else
      match Components(p, u)
      case None => u
      case Some(c) => Assemble(p, SettingPath(p, c, TranscodedPath(p, u))).GetOr(u)
  }
}

=== FILE: link_parsing_properties.dfy ===
/** What the members of `LinkParsing` promise together: round trips through
    the title encoding, what a resolved href looks like when Foundation
    resolves as section 5.2 of RFC 3986 describes, the inverse of `wmf_wiki`,
    the stability of sharing tags, and the discrepancy between what the
    ogg-to-mp3 rewrite computes and what it returns. */
module LinkParsingProperties {
  import opened Options
  import opened Text
  import opened Foundation
  import PercentEncoding
  import Resolution
  import opened LinkParsing

  /** Foundation's `url(relativeTo:)` resolves as section 5.2.2 of RFC 3986. */
  ghost predicate ResolvesPerRfc3986(p: Platform) {
    forall b, r :: p.resolve(b, r) == Resolution.Resolve(b, r)
  }

  // ---------------------------------------------------------------------
  // Scheme replacement

  /** Replacing the scheme a second time changes nothing. */
  lemma ReplacingSchemeIdempotent(p: Platform, u: Url)
    requires ReplacingSchemeWithWikipediaScheme(p, u).Some?
    requires p.decomposes(ReplacingSchemeWithWikipediaScheme(p, u).value)
    ensures ReplacingSchemeWithWikipediaScheme(p, ReplacingSchemeWithWikipediaScheme(p, u).value)
      == ReplacingSchemeWithWikipediaScheme(p, u)
  {
    var v := ReplacingSchemeWithWikipediaScheme(p, u).value;
    assert v.(scheme := Some("wikipedia")) == v;
  }

  // ---------------------------------------------------------------------
  // Title-safe path rebuilding

  /** The encoded title is one path segment and decodes back to the path
      form of the title. */
  lemma EncodedTitleRoundTrip(w: Wiki, u: Url)
    requires EscapesSlashAndPercent(w)
    requires w.title(u).Some?
    ensures '/' !in PercentEncodedPageTitleForPathComponents(w, u).value
    ensures PercentEncoding.Decode(PercentEncodedPageTitleForPathComponents(w, u).value)
      == Some(w.denormalize(w.title(u).value))
  {
    var e := PercentEncodedPageTitleForPathComponents(w, u).value;
    assert forall i :: 0 <= i < |e| ==> e[i] != '/';
  }

  /** The path of `encodedWikiURL` is exactly the two segments `wiki` and
      the encoded title, and the second decodes to the path form of the
      page title, so a title containing `/` is still one segment. */
  lemma EncodedWikiURLSegments(p: Platform, w: Wiki, u: Url)
    requires EscapesSlashAndPercent(w)
    requires EncodedWikiURL(p, w, u).Some?
    ensures PathSegments(EncodedWikiURL(p, w, u).value.percentEncodedPath)
      == ["wiki", PercentEncodedPageTitleForPathComponents(w, u).value]
    ensures PercentEncoding.Decode(PercentEncodedPageTitleForPathComponents(w, u).value)
      == Some(w.denormalize(w.title(u).value))
  {
    var e := PercentEncodedPageTitleForPathComponents(w, u).value;
    EncodedTitleRoundTrip(w, u);
    var path := EncodedWikiURL(p, w, u).value.percentEncodedPath;
    WikiTitlePath(e);
    assert path[1..] == Join(["wiki", e], "/");
    SplitJoin(["wiki", e], '/');
  }

  // ---------------------------------------------------------------------
  // Relative href resolution

  /** `/wiki/<a>` as joined segments. */
  lemma WikiDirectory(a: string)
    ensures Join(["", "wiki"], "/") == "/wiki"
    ensures Join(["", "wiki", a], "/") == "/wiki/" + a
  {
    assert ["", "wiki"][1..] == ["wiki"];
    assert ["", "wiki", a][1..] == ["wiki", a];
    assert ["wiki", a][1..] == [a];
    assert Join(["wiki", a], "/") == "wiki/" + a;
  }

  /** A path href made of allowed characters reaches the parser unchanged. */
  lemma AllowedHrefVerbatim(p: Platform, href: string)
    requires forall i :: 0 <= i < |href| ==> p.relativePathAndFragmentAllowed(href[i])
    ensures HrefComponentsString(p, href) == href
  {
    PercentEncoding.EncodeAllowed(href, p.relativePathAndFragmentAllowed);
  }

  /** A path href with characters outside the allow-list is escaped, and
      the escaping is undone by decoding. */
  lemma PathHrefRoundTrip(p: Platform, href: string)
    requires IsPathHref(href)
    requires !p.relativePathAndFragmentAllowed('%')
    ensures PercentEncoding.Decode(HrefComponentsString(p, href)) == Some(href)
  {
    PercentEncoding.DecodeEncode(href, p.relativePathAndFragmentAllowed);
  }

  /** The base path `/wiki/<encoded title>` seen as directory and last
      segment. */
  lemma EncodedBaseShape(p: Platform, w: Wiki, u: Url)
    requires EscapesSlashAndPercent(w)
    requires EncodedWikiURL(p, w, u).Some?
    ensures EncodedWikiURL(p, w, u).value.percentEncodedPath
      == Join(["", "wiki"], "/") + "/" + PercentEncodedPageTitleForPathComponents(w, u).value
    ensures '/' !in PercentEncodedPageTitleForPathComponents(w, u).value
  {
    EncodedTitleRoundTrip(w, u);
    WikiDirectory("");
  }

  /** A sibling href `./<name>` from any wiki page, whatever its title
      (slashes included), resolves to `/wiki/<name>` on the same scheme and
      host: the encoded base keeps the whole title in the last segment. */
  lemma ResolvingSiblingHref(p: Platform, w: Wiki, u: Url, name: string)
    requires ResolvesPerRfc3986(p)
    requires EscapesSlashAndPercent(w)
    requires EncodedWikiURL(p, w, u).Some?
    requires Resolution.PlainSegment(name)
    requires forall i :: 0 <= i < |"./" + name| ==> p.relativePathAndFragmentAllowed(("./" + name)[i])
    requires p.parse("./" + name).Some? && p.assembles(p.parse("./" + name).value)
    requires p.parse("./" + name).value.scheme.None? && p.parse("./" + name).value.host.None?
    requires p.parse("./" + name).value.percentEncodedPath == "./" + name
    ensures ResolvingRelativeWikiHref(p, w, u, "./" + name).Some?
    ensures ResolvingRelativeWikiHref(p, w, u, "./" + name).value.percentEncodedPath == "/wiki/" + name
    ensures ResolvingRelativeWikiHref(p, w, u, "./" + name).value.scheme == u.scheme
    ensures ResolvingRelativeWikiHref(p, w, u, "./" + name).value.host == u.host
  {
    var href := "./" + name;
    AllowedHrefVerbatim(p, href);
    var base := EncodedWikiURL(p, w, u).value;
    var ref := p.parse(href).value;
    var e := PercentEncodedPageTitleForPathComponents(w, u).value;
    EncodedBaseShape(p, w, u);
    Resolution.ResolveSibling(base, ref, ["", "wiki"], e, name);
    WikiDirectory(name);
    assert ["", "wiki"] + [name] == ["", "wiki", name];
    assert ResolvingRelativeWikiHref(p, w, u, href) == Some(Resolution.Resolve(base, ref));
  }

  /** Why the base is encoded: against the raw page URL of a title `a/b`
      the same sibling href would land under `/wiki/a/`, treating part of
      the title as a directory. */
  lemma RawBaseSplitsTitle(base: Url, ref: Url, a: string, b: string, name: string)
    requires Resolution.PlainSegment(a) && '/' !in b
    requires base.percentEncodedPath == "/wiki/" + a + "/" + b
    requires ref.scheme.None? && ref.host.None? && ref.percentEncodedPath == "./" + name
    requires Resolution.PlainSegment(name)
    ensures Resolution.Resolve(base, ref).percentEncodedPath == "/wiki/" + a + "/" + name
    ensures Resolution.Resolve(base, ref).percentEncodedPath != "/wiki/" + name
  {
    WikiDirectory(a);
    Resolution.ResolveSibling(base, ref, ["", "wiki", a], b, name);
    JoinAppend(["", "wiki", a], [name], "/");
    assert ["", "wiki", a] + [name] == ["", "wiki", a, name];
    assert |"/wiki/" + a + "/" + name| > |"/wiki/" + name|;
  }

  /** An href with a scheme resolves to itself (dots removed) whichever
      wiki page it was found on. */
  lemma ResolvingAbsoluteHref(p: Platform, w: Wiki, u1: Url, u2: Url, href: string)
    requires ResolvesPerRfc3986(p)
    requires !IsPathHref(href)
    requires p.parse(href).Some? && p.parse(href).value.scheme.Some?
    requires EncodedWikiURL(p, w, u1).Some? && EncodedWikiURL(p, w, u2).Some?
    ensures ResolvingRelativeWikiHref(p, w, u1, href) == ResolvingRelativeWikiHref(p, w, u2, href)
    ensures ResolvingRelativeWikiHref(p, w, u1, href).Some? ==>
      var t, ref := ResolvingRelativeWikiHref(p, w, u1, href).value, p.parse(href).value;
      && t.scheme == ref.scheme && t.host == ref.host
      && t.queryItems == ref.queryItems && t.fragment == ref.fragment
      && t.percentEncodedPath == Resolution.RemoveDotSegments(ref.percentEncodedPath)
  {
    var ref := p.parse(href).value;
    assert Resolution.Resolve(EncodedWikiURL(p, w, u1).value, ref) == Resolution.Resolve(EncodedWikiURL(p, w, u2).value, ref);
  }

  // ---------------------------------------------------------------------
  // Database name

  /** For a language code that uses `-` and never `_` (as language codes
      do), the database name gives the language back: undo the replacement
      and drop the `wiki` suffix. */
  lemma WmfWikiRecoversLanguage(w: Wiki, u: Url)
    requires w.language(u).Some? && '_' !in w.language(u).value
    ensures var l := w.language(u).value;
      ReplaceAll(WmfWiki(w, u).value[..|l|], '_', '-') == l
  {
    var l := w.language(u).value;
    var r := WmfWiki(w, u).value;
    var back := ReplaceAll(r[..|l|], '_', '-');
    assert |back| == |l|;
    forall i | 0 <= i < |l|
      ensures back[i] == l[i]
    {
      assert r[..|l|][i] == r[i];
      assert l[i] != '_';
    }
  }

  /** Hence distinct such languages name distinct databases. */
  lemma WmfWikiInjective(w: Wiki, u1: Url, u2: Url)
    requires w.language(u1).Some? && '_' !in w.language(u1).value
    requires w.language(u2).Some? && '_' !in w.language(u2).value
    requires WmfWiki(w, u1) == WmfWiki(w, u2)
    ensures w.language(u1) == w.language(u2)
  {
    WmfWikiRecoversLanguage(w, u1);
    WmfWikiRecoversLanguage(w, u2);
  }

  // ---------------------------------------------------------------------
  // Sharing provenance

  /** Tagging an already tagged URL with the same tag changes nothing. */
  lemma SharingIdempotent(p: Platform, u: Url, wprov: string)
    ensures URLForSharing(p, URLForSharing(p, u, wprov), wprov) == URLForSharing(p, u, wprov)
  {
    var v := URLForSharing(p, u, wprov);
    if CanTag(p, u, wprov) {
      assert v == u.(queryItems := Some(ProvenanceQuery(wprov)));
      assert v.(queryItems := Some(ProvenanceQuery(wprov))) == v;
    }
  }

  /** Re-tagging forgets the earlier tag: the text-shared URL shared again
      as an image carries only the image tag, as if tagged directly. */
  lemma RetaggingReplacesTag(p: Platform, u: Url, first: string, second: string)
    requires CanTag(p, u, first) && p.decomposes(URLForSharing(p, u, first))
    requires CanTag(p, u, second)
    ensures URLForSharing(p, URLForSharing(p, u, first), second) == URLForSharing(p, u, second)
  {
    var v := URLForSharing(p, u, first);
    assert v == u.(queryItems := Some(ProvenanceQuery(first)));
    assert v.(queryItems := Some(ProvenanceQuery(second))) == u.(queryItems := Some(ProvenanceQuery(second)));
  }

  // ---------------------------------------------------------------------
  // Namespaces and talk pages

  /** The namespace part of a `namespaceAndTitle` answer. */
  function NamespaceOfPair(o: Option<NamespacedTitle>): Option<PageNamespace> {
    match o
    case None => None
    case Some(nt) => Some(nt.namespace)
  }

  /** The two app helpers behind `namespace` and `namespaceAndTitle` agree:
      the namespace alone is the namespace of the pair. */
  ghost predicate HelpersAgree(w: Wiki) {
    forall q, l :: w.namespaceOf(q, l) == NamespaceOfPair(w.namespaceAndTitleOf(q, l))
  }

  /** With agreeing helpers, `namespace` is the namespace of
      `namespaceAndTitle`, including when either is `nil`. */
  lemma NamespaceMatchesPair(p: Platform, w: Wiki, u: Url)
    requires HelpersAgree(w)
    ensures Namespace(p, w, u) == NamespaceOfPair(NamespaceAndTitle(p, w, u))
  {
    if w.language(u).Some? && WikiResourcePath(p, w, u).Some? {
      var q, l := WikiResourcePath(p, w, u).value, w.language(u).value;
      assert w.namespaceOf(q, l) == NamespaceOfPair(w.namespaceAndTitleOf(q, l));
    }
  }

  /** A talk page exists only for a page whose namespace is main. */
  lemma TalkPageOnlyInMain(p: Platform, w: Wiki, u: Url)
    requires HelpersAgree(w)
    ensures ArticleTalkPage(p, w, u).Some? ==> Namespace(p, w, u) == Some(Main)
  {
    NamespaceMatchesPair(p, w, u);
  }

  // ---------------------------------------------------------------------
  // Hosted files

  /** The uploads-domain test ignores case: lowering the host first gives
      the same answer, whenever lowering is stable on the lowered host. */
  lemma HostedFileLinkIgnoresCase(p: Platform, w: Wiki, u: Url)
    requires u.host.Some? && p.lowercased(p.lowercased(u.host.value)) == p.lowercased(u.host.value)
    ensures IsHostedFileLink(p, w, u) == IsHostedFileLink(p, w, u.(host := Some(p.lowercased(u.host.value))))
  {
  }

  /** Two hosts that lower to the same string are both upload hosts or
      neither. */
  lemma HostedFileLinkSameLowered(p: Platform, w: Wiki, u1: Url, u2: Url)
    requires u1.host.Some? && u2.host.Some?
    requires p.lowercased(u1.host.value) == p.lowercased(u2.host.value)
    ensures IsHostedFileLink(p, w, u1) == IsHostedFileLink(p, w, u2)
  {
  }

  // ---------------------------------------------------------------------
  // The ogg-to-mp3 rewrite

  /** Taking out what the rewrite inserted gives the original components. */
  lemma TranscodedRemovesToOriginal(cs: seq<string>)
    requires TranscodedPathComponents(cs).Some?
    ensures var m := TranscodedPathComponents(cs).value;
      var i := FirstIndexOf(cs, "commons").value;
      m[..i + 1] + m[i + 2..|m| - 1] == cs
  {
    var i := FirstIndexOf(cs, "commons").value;
    assert cs == cs[..i + 1] + cs[i + 1..];
  }

  /** The rewritten list holds the characters of the original plus the
      `transcoded` segment and the `.mp3` file name. */
  lemma TranscodedTotalLength(cs: seq<string>)
    requires TranscodedPathComponents(cs).Some?
    ensures TotalLength(TranscodedPathComponents(cs).value) == TotalLength(cs) + |cs[|cs| - 1]| + 14
  {
    var m := TranscodedPathComponents(cs).value;
    var i := FirstIndexOf(cs, "commons").value;
    var last := cs[|cs| - 1];
    assert m == cs[..i + 1] + ["transcoded"] + cs[i + 1..] + [last + ".mp3"];
    InsertedLength(cs[..i + 1], cs[i + 1..], last + ".mp3");
    assert cs[..i + 1] + cs[i + 1..] == cs;
  }

  lemma InsertedLength(front: seq<string>, back: seq<string>, added: string)
    ensures TotalLength(front + ["transcoded"] + back + [added])
      == TotalLength(front + back) + 10 + |added|
  {
    TotalLengthAppend(front + ["transcoded"] + back, [added]);
    TotalLengthAppend(front + ["transcoded"], back);
    TotalLengthAppend(front, ["transcoded"]);
    TotalLengthAppend(front, back);
    assert TotalLength(["transcoded"]) == 10;
    assert TotalLength([added]) == |added|;
  }

  /** The components of an absolute path as Foundation lists them: the
      root `/` first, then non-empty segments free of `/`. */
  predicate AbsoluteComponents(cs: seq<string>) {
    && |cs| >= 2 && cs[0] == "/"
    && forall i :: 1 <= i < |cs| ==> |cs[i]| > 0 && '/' !in cs[i]
  }

  /** Joining absolute components with `/` doubles the root slash. */
  lemma JoinDoublesRoot(cs: seq<string>)
    requires |cs| >= 2 && cs[0] == "/"
    ensures HasPrefix(Join(cs, "/"), "//")
  {
  }

  /** `ComponentsPath` turns absolute components back into a path whose
      segments are the components after the root. */
  lemma ComponentsPathSegments(cs: seq<string>)
    requires AbsoluteComponents(cs)
    ensures PathSegments(ComponentsPath(cs)) == cs[1..]
  {
    var rest := cs[1..];
    assert forall i :: 0 <= i < |rest| ==> '/' !in rest[i];
    SplitJoin(rest, '/');
    assert ComponentsPath(cs)[1..] == Join(rest, "/");
  }

  /** ... and that path begins with exactly one slash. */
  lemma ComponentsPathSingleRoot(cs: seq<string>)
    requires AbsoluteComponents(cs)
    ensures HasPrefix(ComponentsPath(cs), "/") && !HasPrefix(ComponentsPath(cs), "//")
  {
    var rest := cs[1..];
    assert Join(rest, "/")[0] == rest[0][0];
    assert rest[0][0] != '/';
  }

  /** The length of `ComponentsPath`: the parts, one separator between
      neighbours, and no separator after a root component. */
  lemma ComponentsPathLength(cs: seq<string>)
    requires |cs| >= 2
    ensures |ComponentsPath(cs)| + (if cs[0] == "/" then 1 else 0) == TotalLength(cs) + |cs| - 1
  {
    if cs[0] == "/" {
      JoinLength(cs[1..], "/");
    } else {
      JoinLength(cs, "/");
    }
  }

  /** As written, once the guards pass and Foundation assembles the URL,
      the path that comes back is the ORIGINAL components joined by `/`,
      which for an absolute path begins with a doubled slash. */
  lemma AsWrittenKeepsOriginalComponents(p: Platform, w: Wiki, u: Url)
    requires !p.urlPathAllowed('%')
    requires IsTranscodable(p, w, u) && p.decomposes(u)
    requires p.assembles(SettingPath(p, u, Join(p.pathComponents(u), "/")))
    ensures PercentEncoding.Decode(ByMakingiOSCompatibilityAdjustments(p, w, u).percentEncodedPath)
      == Some(Join(p.pathComponents(u), "/"))
    ensures AbsoluteComponents(p.pathComponents(u)) ==>
      HasPrefix(Join(p.pathComponents(u), "/"), "//")
  {
    SettingPathDecodes(p, u, Join(p.pathComponents(u), "/"));
    if AbsoluteComponents(p.pathComponents(u)) {
      JoinDoublesRoot(p.pathComponents(u));
    }
  }

  /** As intended, once the guards pass and Foundation assembles the URL,
      the path that comes back decodes to the rewritten list under one
      leading slash: its segments are the rewritten components. */
  lemma IntendedWritesTranscodedComponents(p: Platform, w: Wiki, u: Url)
    requires !p.urlPathAllowed('%')
    requires IsTranscodable(p, w, u) && p.decomposes(u)
    requires p.assembles(SettingPath(p, u, TranscodedPath(p, u)))
    requires AbsoluteComponents(p.pathComponents(u))
    ensures PercentEncoding.Decode(ByMakingiOSCompatibilityAdjustmentsIntended(p, w, u).percentEncodedPath)
      == Some(TranscodedPath(p, u))
    ensures PathSegments(TranscodedPath(p, u)) == TranscodedPathComponents(p.pathComponents(u)).value[1..]
    ensures HasPrefix(TranscodedPath(p, u), "/") && !HasPrefix(TranscodedPath(p, u), "//")
  {
    var cs := p.pathComponents(u);
    var m := TranscodedPathComponents(cs).value;
    SettingPathDecodes(p, u, TranscodedPath(p, u));
    TranscodedKeepsAbsolute(cs);
    ComponentsPathSegments(m);
    ComponentsPathSingleRoot(m);
  }

  /** The rewrite of absolute components is again absolute components. */
  lemma TranscodedKeepsAbsolute(cs: seq<string>)
    requires AbsoluteComponents(cs) && TranscodedPathComponents(cs).Some?
    ensures AbsoluteComponents(TranscodedPathComponents(cs).value)
  {
    var m := TranscodedPathComponents(cs).value;
    var i := FirstIndexOf(cs, "commons").value;
    assert i > 0;
    assert forall k :: 1 <= k < |m| ==> |m[k]| > 0 && '/' !in m[k] by {
      forall k | 1 <= k < |m|
        ensures |m[k]| > 0 && '/' !in m[k]
      {
        if k <= i {
          assert m[k] == cs[k];
        } else if k == i + 1 {
          assert m[k] == "transcoded";
        } else if k < |cs| + 1 {
          assert m[k] == m[i + 2..|cs| + 1][k - i - 2] == cs[k - 1];
        } else {
          assert m[k] == cs[|cs| - 1] + ".mp3";
        }
      }
    }
  }

  /** The discrepancy: whenever the guards pass and both paths can be
      assembled, the code as written returns a different URL from the
      corrected rewrite, because it writes back the original components. */
  lemma RewriteNeverReachesResult(p: Platform, w: Wiki, u: Url)
    requires !p.urlPathAllowed('%')
    requires IsTranscodable(p, w, u) && p.decomposes(u)
    requires p.assembles(SettingPath(p, u, Join(p.pathComponents(u), "/")))
    requires p.assembles(SettingPath(p, u, TranscodedPath(p, u)))
    ensures ByMakingiOSCompatibilityAdjustments(p, w, u) != ByMakingiOSCompatibilityAdjustmentsIntended(p, w, u)
  {
    var cs := p.pathComponents(u);
    var m := TranscodedPathComponents(cs).value;
    TranscodedTotalLength(cs);
    JoinLength(cs, "/");
    ComponentsPathLength(m);
    assert |ComponentsPath(m)| > |Join(cs, "/")|;
    var written := ByMakingiOSCompatibilityAdjustments(p, w, u);
    var intended := ByMakingiOSCompatibilityAdjustmentsIntended(p, w, u);
    assert written == SettingPath(p, u, Join(cs, "/"));
    assert intended == SettingPath(p, u, ComponentsPath(m));
    if written == intended {
      PercentEncoding.EncodeInjective(Join(cs, "/"), ComponentsPath(m), p.urlPathAllowed);
    }
  }

  /** An example upload path: its components gain `transcoded` after
      `commons` and the `.mp3` file name at the end. */
  lemma TranscodedExample()
    ensures TranscodedPathComponents(["/", "wikipedia", "commons", "a", "ab", "Sound.ogg"])
      == Some(["/", "wikipedia", "commons", "transcoded", "a", "ab", "Sound.ogg", "Sound.ogg.mp3"])
  {
    var cs := ["/", "wikipedia", "commons", "a", "ab", "Sound.ogg"];
    assert cs[1..][1..][0] == "commons";
    assert FirstIndexOf(cs[1..][1..], "commons") == Some(0);
    assert FirstIndexOf(cs[1..], "commons") == Some(1);
    assert FirstIndexOf(cs, "commons") == Some(2);
    assert cs[..3] == ["/", "wikipedia", "commons"];
    assert cs[3..] == ["a", "ab", "Sound.ogg"];
    assert "Sound.ogg" + ".mp3" == "Sound.ogg.mp3";
    assert TranscodedPathComponents(cs) == Some(cs[..3] + ["transcoded"] + cs[3..] + [cs[5] + ".mp3"]);
    assert cs[..3] + ["transcoded"] + cs[3..] + [cs[5] + ".mp3"]
      == ["/", "wikipedia", "commons"] + ["transcoded"] + ["a", "ab", "Sound.ogg"] + ["Sound.ogg.mp3"];
    var m := ["/", "wikipedia", "commons"] + ["transcoded"] + ["a", "ab", "Sound.ogg"] + ["Sound.ogg.mp3"];
    assert |m| == 8 && m[3] == "transcoded" && m[7] == "Sound.ogg.mp3";
    assert m == ["/", "wikipedia", "commons", "transcoded", "a", "ab", "Sound.ogg", "Sound.ogg.mp3"];
  }

  /** Joining absolute components with `/` gives the one-slash path with
      one more slash in front. */
  lemma JoinIsRootPlusComponentsPath(cs: seq<string>)
    requires |cs| >= 2 && cs[0] == "/"
    ensures Join(cs, "/") == "/" + ComponentsPath(cs)
  {
  }

  // The two example paths below are stated as two literals joined, and
  // their joins are worked out in small helper lemmas, only to keep each
  // string comparison small enough for the solver.

  /** On the example upload path, the code as written produces the original
      path with a doubled root slash. */
  lemma AsWrittenExamplePath()
    ensures Join(["/", "wikipedia", "commons", "a", "ab", "Sound.ogg"], "/")
      == "//wikipedia/commons/" + "a/ab/Sound.ogg"
  {
    var cs := ["/", "wikipedia", "commons", "a", "ab", "Sound.ogg"];
    JoinIsRootPlusComponentsPath(cs);
    assert cs[1..] == ["wikipedia", "commons"] + ["a", "ab", "Sound.ogg"];
    JoinAppend(["wikipedia", "commons"], ["a", "ab", "Sound.ogg"], "/");
    AsWrittenExampleParts();
    AsWrittenExampleConcat(Join(["wikipedia", "commons"], "/"), Join(["a", "ab", "Sound.ogg"], "/"));
  }

  lemma AsWrittenExampleParts()
    ensures Join(["wikipedia", "commons"], "/") == "wikipedia/commons"
    ensures Join(["a", "ab", "Sound.ogg"], "/") == "a/ab/Sound.ogg"
  {
    JoinCons("wikipedia", ["commons"], "/");
    JoinCons("ab", ["Sound.ogg"], "/");
    JoinCons("a", ["ab", "Sound.ogg"], "/");
  }

  lemma AsWrittenExampleConcat(front: string, back: string)
    requires front == "wikipedia/commons" && back == "a/ab/Sound.ogg"
    ensures "/" + ("/" + (front + "/" + back)) == "//wikipedia/commons/" + "a/ab/Sound.ogg"
  {
    assert "/" + ("/" + (front + "/" + back)) == ("/" + "/" + front + "/") + back;
    assert "/" + "/" + front + "/" == "//wikipedia/commons/";
  }

  /** On the example upload path, the corrected rewrite produces the
      transcoded path under one leading slash. */
  lemma IntendedExamplePath()
    ensures ComponentsPath(["/", "wikipedia", "commons", "transcoded", "a", "ab", "Sound.ogg", "Sound.ogg.mp3"])
      == "/wikipedia/commons/transcoded/" + "a/ab/Sound.ogg/Sound.ogg.mp3"
  {
    var m := ["/", "wikipedia", "commons", "transcoded", "a", "ab", "Sound.ogg", "Sound.ogg.mp3"];
    assert m[1..] == ["wikipedia", "commons", "transcoded"] + ["a", "ab", "Sound.ogg", "Sound.ogg.mp3"];
    IntendedExampleFront();
    IntendedExampleBack();
    JoinAppend(["wikipedia", "commons", "transcoded"], ["a", "ab", "Sound.ogg", "Sound.ogg.mp3"], "/");
    IntendedExampleConcat("wikipedia/commons/transcoded", "a/ab/Sound.ogg/Sound.ogg.mp3");
  }

  lemma IntendedExampleConcat(front: string, back: string)
    requires front == "wikipedia/commons/transcoded" && back == "a/ab/Sound.ogg/Sound.ogg.mp3"
    ensures "/" + (front + "/" + back) == "/wikipedia/commons/transcoded/" + "a/ab/Sound.ogg/Sound.ogg.mp3"
  {
    assert "/" + (front + "/" + back) == ("/" + front + "/") + back;
    assert "/" + front + "/" == "/wikipedia/commons/transcoded/";
  }

  lemma IntendedExampleFront()
    ensures Join(["wikipedia", "commons", "transcoded"], "/") == "wikipedia/commons/transcoded"
  {
    JoinCons("commons", ["transcoded"], "/");
    JoinCons("wikipedia", ["commons", "transcoded"], "/");
  }

  lemma IntendedExampleBack()
    ensures Join(["a", "ab", "Sound.ogg", "Sound.ogg.mp3"], "/") == "a/ab/Sound.ogg/Sound.ogg.mp3"
  {
    JoinCons("Sound.ogg", ["Sound.ogg.mp3"], "/");
    JoinCons("ab", ["Sound.ogg", "Sound.ogg.mp3"], "/");
    JoinCons("a", ["ab", "Sound.ogg", "Sound.ogg.mp3"], "/");
  }
}

=== FILE: options.dfy ===
/** The optional values that the Swift code expresses with `T?`. */
module Options {

  /** `None` plays the part of Swift's `nil`. */
  datatype Option<+T> = None | Some(value: T) {

    /** The wrapped value, or `default` when there is none (Swift's `??`). */
    function GetOr(default: T): T {
      match this
      case Some(v) => v
      case None => default
    }
  }
}

=== FILE: percent_encoding.dfy ===
/** Percent-encoding as section 2.1 of RFC 3986 defines it: a character the
    caller's allow-list admits is written as itself; any other character is
    converted to UTF-8 octets (section 2.5) and each octet written as `%`
    followed by two upper-case hexadecimal digits. Decoding accepts either
    case of hexadecimal digit and fails on a stray `%` or on octets that are
    not UTF-8. */
module PercentEncoding {
  import opened Options
  import Utf8

  predicate IsHexDigit(c: char) {
    ('0' <= c <= '9') || ('A' <= c <= 'F') || ('a' <= c <= 'f')
  }

  function HexValue(c: char): (v: nat)
    requires IsHexDigit(c)
    ensures v < 16
  {
    if '0' <= c <= '9' then c as int - '0' as int
    else if 'A' <= c <= 'F' then c as int - 'A' as int + 10
    else c as int - 'a' as int + 10
  }

  /** The upper-case hexadecimal digit for `v`. */
  function HexDigit(v: nat): (c: char)
    requires v < 16
    ensures IsHexDigit(c) && HexValue(c) == v
  {
    if v < 10 then ('0' as int + v) as char else ('A' as int + v - 10) as char
  }

  /** The characters that encoding itself introduces. */
  predicate IsEscapeChar(c: char) {
    c == '%' || ('0' <= c <= '9') || ('A' <= c <= 'F')
  }

  /** `%HH` for one octet. */
  function EscapeByte(b: Utf8.byte): (r: string)
    ensures |r| == 3 && r[0] == '%' && IsHexDigit(r[1]) && IsHexDigit(r[2])
    ensures HexValue(r[1]) * 16 + HexValue(r[2]) == b as int
    ensures forall i :: 0 <= i < 3 ==> IsEscapeChar(r[i])
  {
    ['%', HexDigit((b / 16) as nat), HexDigit((b % 16) as nat)]
  }

  function EscapeBytes(bs: seq<Utf8.byte>): (r: string)
    ensures forall i :: 0 <= i < |r| ==> IsEscapeChar(r[i])
  {
    if |bs| == 0 then "" else EscapeByte(bs[0]) + EscapeBytes(bs[1..])
  }

  function EncodeChar(c: char, allowed: char -> bool): (r: string)
    ensures forall i :: 0 <= i < |r| ==> allowed(r[i]) || IsEscapeChar(r[i])
  {
    if allowed(c) then [c] else EscapeBytes(Utf8.EncodeScalar(c))
  }

  /** Foundation's `addingPercentEncoding(withAllowedCharacters:)`. Every
      character of the result is either admitted by `allowed` or one that
      encoding introduces, so a character outside both never appears. */
  function Encode(s: string, allowed: char -> bool): (r: string)
    ensures forall i :: 0 <= i < |r| ==> allowed(r[i]) || IsEscapeChar(r[i])
    ensures forall i :: 0 <= i < |s| && allowed(s[i]) && !IsEscapeChar(s[i]) ==> s[i] in r
  {
    if |s| == 0 then ""
    else
      var r := EncodeChar(s[0], allowed) + Encode(s[1..], allowed);
      assert forall i :: 1 <= i < |s| ==> s[i] == s[1..][i - 1];
      r
  }

  /** The octets a percent-encoded string stands for; literal characters
      stand for their UTF-8 octets. */
  function DecodeToBytes(s: string): Option<seq<Utf8.byte>>
    decreases |s|
  {
    if |s| == 0 then Some([])
    else if s[0] == '%' then
      if |s| >= 3 && IsHexDigit(s[1]) && IsHexDigit(s[2]) then
        match DecodeToBytes(s[3..])
        case None => None
        case Some(rest) => Some([(HexValue(s[1]) * 16 + HexValue(s[2])) as Utf8.byte] + rest)
      else None
    else
      match DecodeToBytes(s[1..])
      case None => None
      case Some(rest) => Some(Utf8.EncodeScalar(s[0]) + rest)
  }

  /** Foundation's `removingPercentEncoding`. */
  function Decode(s: string): Option<string> {
    match DecodeToBytes(s)
    case None => None
    case Some(bs) => Utf8.Decode(bs)
  }

  lemma {:induction false} DecodeEscapes(bs: seq<Utf8.byte>, tail: string)
    requires DecodeToBytes(tail).Some?
    ensures DecodeToBytes(EscapeBytes(bs) + tail) == Some(bs + DecodeToBytes(tail).value)
    decreases |bs|
  {
    if |bs| > 0 {
      var e := EscapeByte(bs[0]);
      var s := EscapeBytes(bs) + tail;
      assert s == e + (EscapeBytes(bs[1..]) + tail);
      assert s[0] == '%' && s[1] == e[1] && s[2] == e[2];
      assert s[3..] == EscapeBytes(bs[1..]) + tail;
      DecodeEscapes(bs[1..], tail);
      var x := DecodeToBytes(tail).value;
      assert DecodeToBytes(s[3..]) == Some(bs[1..] + x);
      assert (HexValue(s[1]) * 16 + HexValue(s[2])) as Utf8.byte == bs[0];
      assert DecodeToBytes(s) == Some([bs[0]] + (bs[1..] + x));
      assert [bs[0]] + (bs[1..] + x) == bs + x;
    } else {
      assert EscapeBytes(bs) + tail == tail;
      assert bs + DecodeToBytes(tail).value == DecodeToBytes(tail).value;
    }
  }

  /** Decoding the encoding yields the UTF-8 of the original, provided the
      allow-list does not admit `%` itself. */
  lemma {:induction false} DecodeToBytesEncode(s: string, allowed: char -> bool)
    requires !allowed('%')
    ensures DecodeToBytes(Encode(s, allowed)) == Some(Utf8.Encode(s))
  {
    if |s| > 0 {
      var tail := Encode(s[1..], allowed);
      DecodeToBytesEncode(s[1..], allowed);
      if allowed(s[0]) {
        assert ([s[0]] + tail)[1..] == tail;
      } else {
        DecodeEscapes(Utf8.EncodeScalar(s[0]), tail);
      }
    }
  }

  /** Round trip: percent-decoding undoes percent-encoding for every string,
      whatever the allow-list, as long as it does not admit `%`. */
  lemma DecodeEncode(s: string, allowed: char -> bool)
    requires !allowed('%')
    ensures Decode(Encode(s, allowed)) == Some(s)
  {
    DecodeToBytesEncode(s, allowed);
    Utf8.DecodeEncode(s);
  }

  /** The round trip as a fact about every allow-list: it holds whenever
      the allow-list does not admit `%`. */
  lemma DecodeEncodeWhenEscaped(s: string, allowed: char -> bool)
    ensures !allowed('%') ==> Decode(Encode(s, allowed)) == Some(s)
  {
    if !allowed('%') {
      DecodeEncode(s, allowed);
    }
  }

  /** Encoding loses nothing: distinct strings have distinct encodings. */
  lemma EncodeInjective(s: string, t: string, allowed: char -> bool)
    requires !allowed('%')
    requires Encode(s, allowed) == Encode(t, allowed)
    ensures s == t
  {
    DecodeEncode(s, allowed);
    DecodeEncode(t, allowed);
  }

  /** A string made only of allowed characters is left as it is. */
  lemma {:induction false} EncodeAllowed(s: string, allowed: char -> bool)
    requires forall i :: 0 <= i < |s| ==> allowed(s[i])
    ensures Encode(s, allowed) == s
  {
    if |s| > 0 {
      assert forall i :: 0 <= i < |s[1..]| ==> s[1..][i] == s[i + 1];
      EncodeAllowed(s[1..], allowed);
      assert s == [s[0]] + s[1..];
    }
  }
}

=== FILE: resolution.dfy ===
/** A reference semantics for resolving a relative reference against a base
    URL, after section 5.2 of RFC 3986: the target components of section
    5.2.2, path merging of section 5.2.3, and the dot-segment removal of
    section 5.2.4 read segment by segment (the path split at `/`, `.`
    segments dropped, `..` segments dropping the segment before them, the
    first segment always kept). Foundation's `url(relativeTo:)` is a
    parameter of the model; this module is the semantics the resolution
    properties assume of it. It is written for the rooted paths a wiki base
    produces; on a relative path it keeps the first segment where section
    5.2.4 would remove it: `a/..` becomes `a/`, not `/`. */
module Resolution {
  import opened Options
  import opened Text
  import opened Foundation

  /** The position of the last `/` in `s`. */
  function LastSlash(s: string): (r: Option<nat>)
    ensures r.None? <==> '/' !in s
    ensures r.Some? ==> r.value < |s| && s[r.value] == '/' && '/' !in s[r.value + 1..]
  {
    if |s| == 0 then None
    else if s[|s| - 1] == '/' then Some(|s| - 1)
    else
      match LastSlash(s[..|s| - 1])
      case None => None
      case Some(i) =>
        assert s[i + 1..] == s[..|s| - 1][i + 1..] + [s[|s| - 1]];
        Some(i)
  }

  /** Drops the last segment of `output`, never the first one (for an
      absolute path, the empty segment before the root slash). */
  function Pop(output: seq<string>): seq<string> {
    if |output| <= 1 then output else output[..|output| - 1]
  }

  /** The segment `.`. */
  predicate IsDot(seg: string) {
    |seg| == 1 && seg[0] == '.'
  }

  /** The segment `..`. */
  predicate IsDotDot(seg: string) {
    |seg| == 2 && seg[0] == '.' && seg[1] == '.'
  }

  /** Section 5.2.4 over the segments of a path. A `.` or `..` in last
      position leaves an empty last segment, so the result ends in `/`. */
  function RemoveDots(input: seq<string>, output: seq<string>): seq<string>
    decreases |input|
  {
    if |input| == 0 then output
    else
      var last := if |input| == 1 then [""] else [];
      if IsDot(input[0]) then RemoveDots(input[1..], output + last)
      else if IsDotDot(input[0]) then RemoveDots(input[1..], Pop(output) + last)
      else RemoveDots(input[1..], output + [input[0]])
  }

  function RemoveDotSegments(path: string): string {
    Join(RemoveDots(Split(path, '/'), []), "/")
  }

  /** Section 5.2.3: the reference path appended to the base path minus its
      last segment. */
  function Merge(base: Url, refPath: string): string {
    if base.host.Some? && base.percentEncodedPath == "" then "/" + refPath
    else
      match LastSlash(base.percentEncodedPath)
      case None => refPath
      case Some(i) => base.percentEncodedPath[..i + 1] + refPath
  }

  /** Section 5.2.2: the target of reference `r` against `base`. */
  function Resolve(base: Url, r: Url): (t: Url)
    ensures t.fragment == r.fragment
    ensures r.scheme.Some? ==> t.scheme == r.scheme && t.host == r.host && t.queryItems == r.queryItems
    ensures r.scheme.None? ==> t.scheme == base.scheme
    ensures r.scheme.None? && r.host.None? ==> t.host == base.host
  {
    if r.scheme.Some? then
      r.(percentEncodedPath := RemoveDotSegments(r.percentEncodedPath))
    else if r.host.Some? then
      Url(base.scheme, r.host, RemoveDotSegments(r.percentEncodedPath), r.queryItems, r.fragment)
    else if r.percentEncodedPath == "" then
      Url(base.scheme, base.host, base.percentEncodedPath,
          if r.queryItems.Some? then r.queryItems else base.queryItems, r.fragment)
    else if r.percentEncodedPath[0] == '/' then
      Url(base.scheme, base.host, RemoveDotSegments(r.percentEncodedPath), r.queryItems, r.fragment)
    else
      Url(base.scheme, base.host, RemoveDotSegments(Merge(base, r.percentEncodedPath)), r.queryItems, r.fragment)
  }

  /** A segment that dot-segment removal leaves alone. */
  predicate PlainSegment(seg: string) {
    '/' !in seg && !IsDot(seg) && !IsDotDot(seg)
  }

  /** Segments without dots pass to the output unchanged. */
  lemma {:induction false} RemoveDotsPlain(input: seq<string>, output: seq<string>)
    requires forall i :: 0 <= i < |input| ==> PlainSegment(input[i])
    ensures RemoveDots(input, output) == output + input
    decreases |input|
  {
    if |input| > 0 {
      assert PlainSegment(input[0]);
      RemoveDotsPlain(input[1..], output + [input[0]]);
      assert output + [input[0]] + input[1..] == output + input;
    }
  }

  /** Dot-segment removal leaves a path without dot segments as it is. */
  lemma RemoveDotSegmentsIdentity(segs: seq<string>)
    requires |segs| >= 1
    requires forall i :: 0 <= i < |segs| ==> PlainSegment(segs[i])
    ensures RemoveDotSegments(Join(segs, "/")) == Join(segs, "/")
  {
    SplitJoin(segs, '/');
    RemoveDotsPlain(segs, []);
    assert [] + segs == segs;
  }

  /** Merging drops exactly the part of the base path after its last `/`. */
  lemma MergeAfterLastSlash(base: Url, dir: string, last: string, refPath: string)
    requires base.percentEncodedPath == dir + "/" + last
    requires '/' !in last
    ensures Merge(base, refPath) == dir + "/" + refPath
  {
    var p := base.percentEncodedPath;
    assert p[|dir|] == '/';
    assert p[|dir| + 1..] == last;
    assert forall k :: |dir| < k < |p| ==> p[k] == last[k - |dir| - 1];
    assert LastSlash(p) == Some(|dir|);
    assert p[..|dir| + 1] == dir + "/";
  }

  /** Dot-segment removal on `<dirs>/./<name>`. */
  lemma RemoveDotSegmentsSibling(dirs: seq<string>, name: string)
    requires forall i :: 0 <= i < |dirs| ==> PlainSegment(dirs[i])
    requires PlainSegment(name)
    ensures RemoveDotSegments(Join(dirs + [".", name], "/")) == Join(dirs + [name], "/")
  {
    var segs := dirs + [".", name];
    assert forall i :: 0 <= i < |segs| ==> '/' !in segs[i];
    SplitJoin(segs, '/');
    RemoveDotsSibling(dirs, name);
    assert RemoveDotSegments(Join(segs, "/")) == Join(RemoveDots(segs, []), "/");
  }

  /** Dot removal on the segments `<dirs>, ., <name>`. */
  lemma RemoveDotsSibling(dirs: seq<string>, name: string)
    requires forall i :: 0 <= i < |dirs| ==> PlainSegment(dirs[i])
    requires PlainSegment(name)
    ensures RemoveDots(dirs + [".", name], []) == dirs + [name]
  {
    RemoveDotsPrefix(dirs, [".", name]);
    assert IsDot([".", name][0]) && [".", name][1..] == [name];
    assert RemoveDots([".", name], dirs) == RemoveDots([name], dirs + []);
    assert dirs + [] == dirs;
    RemoveDotsPlain([name], dirs);
  }

  lemma JoinDot(name: string)
    ensures Join([".", name], "/") == "./" + name
  {
  }

  lemma JoinDotName(dirs: seq<string>, name: string)
    requires |dirs| >= 1
    ensures Join(dirs + [".", name], "/") == Join(dirs, "/") + "/" + ("./" + name)
  {
    JoinAppend(dirs, [".", name], "/");
    JoinDot(name);
  }

  /** A `./name` reference against a base path `<dirs>/<last>` lands on
      `<dirs>/name`: only the last segment of the base is replaced. */
  lemma ResolveSibling(base: Url, r: Url, dirs: seq<string>, last: string, name: string)
    requires |dirs| >= 1
    requires forall i :: 0 <= i < |dirs| ==> PlainSegment(dirs[i])
    requires base.percentEncodedPath == Join(dirs, "/") + "/" + last && '/' !in last
    requires r.scheme.None? && r.host.None? && r.percentEncodedPath == "./" + name
    requires PlainSegment(name)
    ensures Resolve(base, r).percentEncodedPath == Join(dirs + [name], "/")
  {
    var dir := Join(dirs, "/");
    MergeAfterLastSlash(base, dir, last, r.percentEncodedPath);
    assert r.percentEncodedPath[0] == '.';
    JoinDotName(dirs, name);
    assert Merge(base, r.percentEncodedPath) == Join(dirs + [".", name], "/");
    RemoveDotSegmentsSibling(dirs, name);
    assert Resolve(base, r).percentEncodedPath == RemoveDotSegments(Merge(base, r.percentEncodedPath));
  }

  /** Removing dots from a plain prefix followed by more segments carries
      the prefix into the output. */
  lemma {:induction false} RemoveDotsPrefix(prefix: seq<string>, rest: seq<string>)
    requires forall i :: 0 <= i < |prefix| ==> PlainSegment(prefix[i])
    ensures RemoveDots(prefix + rest, []) == RemoveDots(rest, prefix)
  {
    RemoveDotsSplit(prefix, rest, []);
    assert [] + prefix == prefix;
  }

  lemma {:induction false} RemoveDotsSplit(prefix: seq<string>, rest: seq<string>, output: seq<string>)
    requires forall i :: 0 <= i < |prefix| ==> PlainSegment(prefix[i])
    ensures RemoveDots(prefix + rest, output) == RemoveDots(rest, output + prefix)
    decreases |prefix|
  {
    if |prefix| == 0 {
      assert prefix + rest == rest;
      assert output + prefix == output;
    } else {
      assert PlainSegment(prefix[0]);
      var input := prefix + rest;
      assert input[0] == prefix[0] && input[1..] == prefix[1..] + rest;
      RemoveDotsSplit(prefix[1..], rest, output + [prefix[0]]);
      assert output + [prefix[0]] + prefix[1..] == output + prefix;
    }
  }
}

=== FILE: text.dfy ===
/** Character- and sequence-level helpers that the Swift standard library
    provides to the link-parsing code: prefix tests, first-index search,
    splitting on a separator, joining with a separator and single-character
    replacement. */
module Text {
  import opened Options

  /** Swift's `hasPrefix`, compared scalar by scalar. */
  predicate HasPrefix(s: string, prefix: string) {
    |prefix| <= |s| && s[..|prefix|] == prefix
  }

  /** Swift's `Array.firstIndex(of:)`: the position of the first `x` in `s`. */
  function FirstIndexOf<T(==)>(s: seq<T>, x: T): (r: Option<nat>)
    ensures r.None? <==> x !in s
    ensures r.Some? ==> r.value < |s| && s[r.value] == x && x !in s[..r.value]
  {
    if |s| == 0 then None
    else if s[0] == x then Some(0)
    else
      match FirstIndexOf(s[1..], x)
      case None => None
      case Some(i) =>
        assert s[..i + 1] == [s[0]] + s[1..][..i];
        Some(i + 1)
  }

  /** Swift's `joined(separator:)` on an array of strings. */
  function Join(parts: seq<string>, sep: string): (r: string)
  {
    if |parts| == 0 then ""
    else if |parts| == 1 then parts[0]
    else parts[0] + sep + Join(parts[1..], sep)
  }

  /** Splits `s` at every occurrence of `sep`; the pieces never contain
      `sep`, and there is always at least one piece. */
  function Split(s: string, sep: char): (parts: seq<string>)
    ensures |parts| >= 1
    ensures forall i :: 0 <= i < |parts| ==> sep !in parts[i]
    decreases |s|
  {
    match FirstIndexOf(s, sep)
    case None => [s]
    case Some(i) => [s[..i]] + Split(s[i + 1..], sep)
  }

  /** Swift's `replacingOccurrences(of:with:)` for one-character strings. */
  function ReplaceAll(s: string, from: char, to: char): (r: string)
    ensures |r| == |s|
    ensures forall i :: 0 <= i < |s| ==> r[i] == (if s[i] == from then to else s[i])
  {
    if |s| == 0 then ""
    else [if s[0] == from then to else s[0]] + ReplaceAll(s[1..], from, to)
  }

  /** Joining the pieces of a split restores the original string. */
  lemma {:induction false} JoinSplit(s: string, sep: char)
    ensures Join(Split(s, sep), [sep]) == s
    decreases |s|
  {
    match FirstIndexOf(s, sep)
    case None =>
    case Some(i) =>
      var rest := Split(s[i + 1..], sep);
      JoinSplit(s[i + 1..], sep);
      JoinCons(s[..i], rest, [sep]);
      assert Split(s, sep) == [s[..i]] + rest;
      assert s == s[..i] + [sep] + s[i + 1..];
  }

  lemma JoinCons(head: string, rest: seq<string>, sep: string)
    requires |rest| >= 1
    ensures Join([head] + rest, sep) == head + sep + Join(rest, sep)
  {
    assert ([head] + rest)[1..] == rest;
  }

  /** Splitting a join of separator-free, non-empty-list pieces gives the
      pieces back. */
  lemma {:induction false} SplitJoin(parts: seq<string>, sep: char)
    requires |parts| >= 1
    requires forall i :: 0 <= i < |parts| ==> sep !in parts[i]
    ensures Split(Join(parts, [sep]), sep) == parts
    decreases |parts|
  {
    if |parts| == 1 {
      assert FirstIndexOf(parts[0], sep).None?;
    } else {
      var rest := Join(parts[1..], [sep]);
      var s := parts[0] + [sep] + rest;
      assert sep !in parts[0];
      assert s[..|parts[0]|] == parts[0];
      assert s[|parts[0]|] == sep;
      var i := FirstIndexOf(s, sep);
      assert i == Some(|parts[0]|);
      assert s[|parts[0]| + 1..] == rest;
      SplitJoin(parts[1..], sep);
    }
  }

  /** Joining two non-empty lists puts exactly one separator between them. */
  lemma {:induction false} JoinAppend(a: seq<string>, b: seq<string>, sep: string)
    requires |a| >= 1 && |b| >= 1
    ensures Join(a + b, sep) == Join(a, sep) + sep + Join(b, sep)
    decreases |a|
  {
    if |a| == 1 {
      assert (a + b)[1..] == b;
    } else {
      assert (a + b)[1..] == a[1..] + b;
      JoinAppend(a[1..], b, sep);
    }
  }

  /** The number of characters in all the parts together. */
  function TotalLength(parts: seq<string>): nat {
    if |parts| == 0 then 0 else |parts[0]| + TotalLength(parts[1..])
  }

  lemma {:induction false} TotalLengthAppend(a: seq<string>, b: seq<string>)
    ensures TotalLength(a + b) == TotalLength(a) + TotalLength(b)
  {
    if |a| > 0 {
      assert (a + b)[1..] == a[1..] + b;
      TotalLengthAppend(a[1..], b);
    } else {
      assert a + b == b;
    }
  }

  /** A joined string is as long as its parts plus one separator between
      each neighbouring pair. */
  lemma {:induction false} JoinLength(parts: seq<string>, sep: string)
    requires |parts| >= 1
    ensures |Join(parts, sep)| == TotalLength(parts) + (|parts| - 1) * |sep|
  {
    if |parts| > 1 {
      JoinLength(parts[1..], sep);
    }
  }
}

=== FILE: utf8.dfy ===
/** UTF-8 (RFC 3629), the character-to-octet step that section 2.5 of
    RFC 3986 prescribes before percent-encoding. A Dafny `char` is a Unicode
    scalar value, so encoding is total; decoding rejects malformed input
    (bad lead or continuation bytes, overlong forms, surrogates, values
    past U+10FFFF). */
module Utf8 {
  import opened Options

  newtype byte = x: int | 0 <= x < 0x100

  predicate IsScalar(v: int) {
    (0 <= v < 0xD800) || (0xE000 <= v < 0x11_0000)
  }

  predicate IsContinuation(b: byte) {
    0x80 <= b < 0xC0
  }

  /** The number of bytes a sequence starting with `lead` occupies, or 0
      when `lead` cannot start a sequence. */
  function SequenceLength(lead: byte): nat {
    if lead < 0x80 then 1
    else if 0xC2 <= lead < 0xE0 then 2
    else if 0xE0 <= lead < 0xF0 then 3
    else if 0xF0 <= lead < 0xF5 then 4
    else 0
  }

  /** The bytes of one scalar value: lead byte first, then continuation
      bytes carrying six bits each. */
  function EncodeScalar(c: char): (bs: seq<byte>)
    ensures 1 <= |bs| <= 4
    ensures SequenceLength(bs[0]) == |bs|
    ensures forall i :: 1 <= i < |bs| ==> IsContinuation(bs[i])
  {
    var v := c as int;
    var a, b, d := v / 0x40, v / 0x40 / 0x40, v / 0x40 / 0x40 / 0x40;
    if v < 0x80 then
      [v as byte]
    else if v < 0x800 then
      [(0xC0 + a) as byte, (0x80 + v % 0x40) as byte]
    else if v < 0x1_0000 then
      [(0xE0 + b) as byte, (0x80 + a % 0x40) as byte, (0x80 + v % 0x40) as byte]
    else
      [(0xF0 + d) as byte, (0x80 + b % 0x40) as byte, (0x80 + a % 0x40) as byte, (0x80 + v % 0x40) as byte]
  }

  /** The value carried by a well-shaped sequence, before range checks. */
  function SequenceValue(bs: seq<byte>): int
    requires 1 <= |bs| <= 4
  {
    if |bs| == 1 then bs[0] as int
    else if |bs| == 2 then (bs[0] as int - 0xC0) * 0x40 + (bs[1] as int - 0x80)
    else if |bs| == 3 then
      (bs[0] as int - 0xE0) * 0x1000 + (bs[1] as int - 0x80) * 0x40 + (bs[2] as int - 0x80)
    else
      (bs[0] as int - 0xF0) * 0x4_0000 + (bs[1] as int - 0x80) * 0x1000
        + (bs[2] as int - 0x80) * 0x40 + (bs[3] as int - 0x80)
  }

  /** The smallest value a sequence of `n` bytes may carry (shorter forms
      are overlong). */
  function MinValue(n: nat): int {
    if n <= 1 then 0 else if n == 2 then 0x80 else if n == 3 then 0x800 else 0x1_0000
  }

  /** Decodes exactly one sequence, or fails. */
  function DecodeSequence(bs: seq<byte>): Option<char>
    requires 1 <= |bs| <= 4
  {
    var v := SequenceValue(bs);
    if SequenceLength(bs[0]) == |bs|
       && (forall i :: 1 <= i < |bs| ==> IsContinuation(bs[i]))
       && MinValue(|bs|) <= v && IsScalar(v)
    then Some(v as char)
    else None
  }

  function Encode(s: string): (bs: seq<byte>)
    ensures |s| == 0 <==> |bs| == 0
  {
    if |s| == 0 then [] else EncodeScalar(s[0]) + Encode(s[1..])
  }

  function Decode(bs: seq<byte>): Option<string>
    decreases |bs|
  {
    if |bs| == 0 then Some("")
    else
      var n := SequenceLength(bs[0]);
      if n == 0 || |bs| < n then None
      else
        match DecodeSequence(bs[..n])
        case None => None
        case Some(c) =>
          match Decode(bs[n..])
          case None => None
          case Some(rest) => Some([c] + rest)
  }

  /** Six-bit digit extraction: the quotient and remainder by 64 are the
      unique ones. */
  lemma DivMod64(x: int, q: int, r: int)
    requires 0 <= r < 0x40 && x == 0x40 * q + r
    ensures x / 0x40 == q && x % 0x40 == r
  {
  }

  /** One scalar value survives encoding and decoding. */
  lemma ScalarRoundTrip(c: char)
    ensures DecodeSequence(EncodeScalar(c)) == Some(c)
  {
    var v := c as int;
    var a, b, d := v / 0x40, v / 0x40 / 0x40, v / 0x40 / 0x40 / 0x40;
    assert v == 0x40 * a + v % 0x40;
    assert a == 0x40 * b + a % 0x40;
    assert b == 0x40 * d + b % 0x40;
    var bs := EncodeScalar(c);
    assert SequenceValue(bs) == v by {
      if |bs| == 2 {
        assert SequenceValue(bs) == a * 0x40 + v % 0x40;
      } else if |bs| == 3 {
        assert SequenceValue(bs) == b * 0x1000 + (a % 0x40) * 0x40 + v % 0x40;
      } else if |bs| == 4 {
        assert SequenceValue(bs) == d * 0x4_0000 + (b % 0x40) * 0x1000 + (a % 0x40) * 0x40 + v % 0x40;
      }
    }
    assert MinValue(|bs|) <= v;
  }

  /** A sequence that decodes is the encoding of what it decodes to: the
      decoder accepts no second spelling of any scalar value. */
  lemma SequenceCanonical(bs: seq<byte>)
    requires 1 <= |bs| <= 4
    requires DecodeSequence(bs).Some?
    ensures EncodeScalar(DecodeSequence(bs).value) == bs
  {
    var v := SequenceValue(bs);
    var c := DecodeSequence(bs).value;
    assert c as int == v;
    var n := |bs|;
    var x0 := bs[0] as int;
    var x1 := if n >= 2 then bs[n - 1] as int - 0x80 else 0;
    var x2 := if n >= 3 then bs[n - 2] as int - 0x80 else 0;
    var x3 := if n >= 4 then bs[n - 3] as int - 0x80 else 0;
    if n == 2 {
      DivMod64(v, x0 - 0xC0, x1);
    } else if n == 3 {
      DivMod64(v, (x0 - 0xE0) * 0x40 + x2, x1);
      DivMod64(v / 0x40, x0 - 0xE0, x2);
    } else if n == 4 {
      DivMod64(v, (x0 - 0xF0) * 0x1000 + x3 * 0x40 + x2, x1);
      DivMod64(v / 0x40, (x0 - 0xF0) * 0x40 + x3, x2);
      DivMod64(v / 0x40 / 0x40, x0 - 0xF0, x3);
    }
    var e := EncodeScalar(c);
    assert |e| == n;
    assert forall i :: 0 <= i < n ==> e[i] == bs[i];
  }

  /** Decoding inverts encoding. */
  lemma {:induction false} DecodeEncode(s: string)
    ensures Decode(Encode(s)) == Some(s)
  {
    if |s| > 0 {
      var e := EncodeScalar(s[0]);
      var bs := Encode(s);
      assert bs == e + Encode(s[1..]);
      assert bs[..|e|] == e;
      assert bs[|e|..] == Encode(s[1..]);
      ScalarRoundTrip(s[0]);
      DecodeEncode(s[1..]);
      assert s == [s[0]] + s[1..];
    }
  }

  /** Encoding inverts decoding: only canonical UTF-8 decodes. */
  lemma {:induction false} EncodeDecode(bs: seq<byte>)
    requires Decode(bs).Some?
    ensures Encode(Decode(bs).value) == bs
    decreases |bs|
  {
    if |bs| > 0 {
      var n := SequenceLength(bs[0]);
      SequenceCanonical(bs[..n]);
      EncodeDecode(bs[n..]);
      var s := Decode(bs).value;
      assert s[1..] == Decode(bs[n..]).value;
      assert bs == bs[..n] + bs[n..];
    }
  }
}
